=== FILE: README.md ===
# mdai document parser, modelled in Dafny

mdai watches one markdown file. When the file changes, it reads the file as a
conversation and sends that conversation to a chat provider (chatgpt or
gemini). It then writes the reply back into the file where the ask token
stands. This project models the part that decides what gets sent and where the
reply goes:

- `parse`, the single pass over the document's lines. It reads an optional
  leading option block. It rejects ambiguous user/assistant markers. It builds
  the role-tagged message list, with resets, optional retention of system
  messages, and image/link attachments. It reports the offset of the ask line.
- the splice that writes the pending marker and then the rendered reply into
  the text captured at the start of the cycle;
- the rendering `answer.replace(R, template)`, where `R` is the regex
  `(.|\n)*`, including the `$` patterns that ECMA-262's GetSubstitution
  expands (section 22.1.3.19.1 in the 2024 edition);
- how the messages are shaped for chatgpt and for gemini.

Everything is a pure function over immutable datatypes. `YAML.parse`, the
loaded profile (`_config`), the two regex matches and the attachment resolvers
are inputs (`Parser.Env`, `Conversation.Attachments`). The provider's reply is
an input too (`Watch.Reply`).

Each `char` stands for one UTF-16 code unit. So `|s|` is JavaScript's
`s.length`, and every offset is a code-unit offset.

Modules, leaf first: `Wrappers` (Option, Result), `Js` (values, truthiness,
`indexOf`, `replace` with a string pattern, `slice`), `Lines` (split, join,
offset table), `Substitution` (answer rendering), `Options` (markers, option
block, configuration layering), `Conversation` (line classification and the
effect of one line), `Parser` (`parse`), `ParseProperties`, `CheckedParse`
(the found-flag correction), `Provider` (message shaping), `Watch` (the writes
of one cycle).

The model keeps these quirks of the code:

- The code does not trim message text or drop empty messages. Lines 229-230
  discard the `trim()` result, and they filter on `content`, which is always an
  object.
- The code has no "found" flag. `askIndex` starts at 0.
- The code merges the document's `config` over the profile with a shallow
  `Object.assign`. The provider `option` object is replaced whole, not merged
  key by key.

## Model

| member | source | states |
|---|---|---|
| `Js.IndexOfFrom` | src/main.ts:195-197 | the result is the first offset at or after `from` where the pattern occurs, and None means it occurs nowhere there |
| `Js.RemoveLeading` | src/main.ts:195-197 | `line.replace(marker, "")` on a line that starts with the marker leaves exactly the rest of the line, so marker + result gives back the line |
| `Js.Slice` | src/main.ts:42 | `slice` clamps both bounds to the length: in range it is the substring, past the end it is empty |
| `Lines.Split` | src/main.ts:135 | `split("\n")` gives one more piece than there are newlines, and no piece contains a newline |
| `Lines.JoinSplit` | src/main.ts:135 | joining the split lines with "\n" gives back the original text |
| `Lines.SplitJoin` | src/main.ts:135 | splitting a join of newline-free lines gives back those lines |
| `Lines.SplitPrefix` | src/main.ts:135 | text that begins with a newline-free piece splits with that piece glued to the first line of the rest |
| `Lines.LineAt` | src/main.ts:150-154 | line n lies in the text at its offset, the sum of length+1 over the lines before it |
| `Lines.LineInText` | src/main.ts:135-154 | each piece of the split text occurs in the text at the offset the table gives it |
| `Lines.OffsetAppend` | src/main.ts:149-154 | pushing the synthetic reset line moves no earlier line's offset |
| `Lines.OffsetEnd` | src/main.ts:149-154 | the synthetic line's offset is one past the end of the text |
| `Lines.JoinSplice` | src/main.ts:42 | replacing a line's characters at its offset is the same as replacing that line and joining again: no other line changes |
| `Lines.Table` | src/main.ts:150-154 | the running `index += length + 1` table holds each line with its offset, the sum over the lines before it |
| `Substitution.LeadingMatch` | src/main.ts:39 | the regex matches the longest prefix of the reply free of `\r`, U+2028 and U+2029 |
| `Substitution.LeadingMatchWhole` | src/main.ts:39 | a reply free of those three characters is matched whole |
| `Substitution.SubstitutePlaceholders` | src/main.ts:39 | when every `$` in the template starts `$&`, GetSubstitution just fills each `$&` with the match |
| `Substitution.SubstituteLiteral` | src/main.ts:39 | a template without `$` expands to itself |
| `Substitution.SubstituteEscapes` | src/main.ts:39 | GetSubstitution turns `$$` into one dollar, `$&` into the match, `` $` `` into the text before it and `$'` into the text after it |
| `Substitution.SubstituteGroups` | src/main.ts:39 | with the one capture group of `(.|\n)*`, `$1` and `$01` give the capture, `$10` gives the capture then "0", and `$2`, `$<` and a lone `$` stay literal |
| `Substitution.Render` | src/main.ts:39 | `replace` with the non-global regex substitutes only for the leading match; the rest of the reply, from its first `\r`, U+2028 or U+2029, is appended unchanged; a reply with none of them is matched whole |
| `Substitution.RenderFills` | src/main.ts:39 | for a reply free of `\r`, U+2028 and U+2029, the rendered text is the template with every `$&` replaced by the reply |
| `Substitution.RenderDefault` | src/main.ts:39 | with the default template, every reply (even one with `\r`) renders as "\n!>\n" followed by the reply verbatim |
| `Substitution.RenderWithoutPlaceholder` | src/main.ts:39 | a template without `$` drops the matched part of the reply and keeps only its tail from the first `\r`, U+2028 or U+2029 |
| `Substitution.RenderSplitsAtCarriageReturn` | src/main.ts:39 | as written, template "$&x" and reply "\r" render "x\r", not "\rx" |
| `Substitution.RenderWhole` | src/main.ts:39 | corrected rendering: every `$&` of a placeholder-only template receives the whole reply, whatever it contains |
| `Substitution.RenderWholeDefault` | src/main.ts:39 | on the default template, the corrected and the as-written rendering agree |
| `Options.OptionLoop` | src/main.ts:156-183 | a block is found only when the loop began at line 0; it closes on a delimiter line inside the list, the data starts one past that line, and the body extends the lines collected so far |
| `Options.FindClose` | src/main.ts:156-179 | the first delimiter line at or after n, and None when there is none |
| `Options.LoopInside` | src/main.ts:156-183 | once the block is open, the loop collects every line up to the first delimiter and closes there |
| `Options.LoopOutside` | src/main.ts:156-183 | a delimiter anywhere but line 0 never opens a block |
| `Options.LocateBlock` | src/main.ts:156-183 | a block exists exactly when line 0 is `---` and a later `---` follows; its body is the lines in between, and the data starts one past the closing line |
| `Options.ApplyMarkers` | src/main.ts:168-172 | each marker takes the block's value only when that value is a non-empty string, else keeps its default; so no marker is ever empty |
| `Options.BaseConfig` | src/main.ts:148 | the starting config is the loaded profile when there is one, and otherwise a config whose only key is `type`, set to "chatgpt" |
| `Options.BlockSettings` | src/main.ts:168-174 | a closed block's settings: no marker is empty, `shareSys` is `Boolean(option["shareSys"])`, and the block's config keys override the starting config, which stands alone when the block has no config |
| `Options.Assign` | src/main.ts:174 | `Object.assign`: the document's config keys win, and the other profile keys stay |
| `Options.WithDefaultType` | src/main.ts:232 | the result always has a truthy `type`; a falsy or missing type becomes "chatgpt", and every other key is unchanged |
| `Options.Resolve` | src/main.ts:155-183 | without a block, the defaults apply and the data starts at 0; with one, a YAML error or a null document fails the parse, and otherwise the block's settings apply from one past the block |
| `Conversation.Systems` | src/main.ts:206 | the filter keeps only system messages and keeps every one of them, with its multiplicity |
| `Conversation.SystemsAppend` | src/main.ts:206 | the filter distributes over concatenation, so the kept system messages stay in their original order |
| `Conversation.SystemsIdempotent` | src/main.ts:205-206 | a second reset keeps exactly what the first one kept |
| `Conversation.Continue` | src/main.ts:210-226 | a content line starts a system message holding the raw line when the list is empty; otherwise it changes only the last message, keeping the list's length: an image match sets the image, else a link match appends the resolved text, else "\n" and the line are appended |
| `Conversation.Classify` | src/main.ts:194-203 | the branch a line takes, tested in the code's order: an assistant-marker prefix wins over a user-marker prefix, then the exact ask token, then an ignore prefix, then the exact reset line; anything else is content |
| `Conversation.Step` | src/main.ts:192-228 | assistant and user lines append one message whose text is the line without its leading marker; ignored lines change nothing; a reset keeps only the system messages with shareSys, or empties the list without it |
| `Conversation.ResetKeepsSystems` | src/main.ts:203-209 | with shareSys, a reset loses no system message |
| `Parser.DocLines` | src/main.ts:135-149 | the scanned lines are the document's lines followed by one synthetic `---` |
| `Parser.FirstTrigger` | src/main.ts:192-200 | the line the loop breaks on is the first at or after the data start that is classified as the ask token; None means no such line exists |
| `Parser.Scan` | src/main.ts:192-228 | the scan stops at the first line classified as the ask token and records that line's offset; if no line is one, it reports offset 0 |
| `Parser.Decide` | src/main.ts:184-233 | once the settings are known the call never throws; it gives up on ambiguous markers and only on them, gives up with "no messages" exactly when the markers are unambiguous and the list is empty, and otherwise returns the scan's messages, the scan's recorded offset (0 if no ask line was reached), the ask token, the template and the config with its default type |
| `Parser.Parse` | src/main.ts:134-234 | a result always has at least one message, a non-empty ask token and template, and a truthy provider `type` |
| `ParseProperties.ParseOffset` | src/main.ts:150-199 | when the scan stops on a document line, the reported index is that line's offset, and the text there holds exactly the ask token |
| `ParseProperties.StoppedLine` | src/main.ts:192-200 | the line the scan stopped on is exactly the ask token, and the reported index is that line's offset in the document |
| `ParseProperties.ScanIgnoresRest` | src/main.ts:198-200 | lines after the ask line are never examined: changing them cannot change the scan's result |
| `ParseProperties.NoTrimOrDrop` | src/main.ts:229-233 | the messages handed on are the scan's final list, untrimmed, with none dropped |
| `ParseProperties.ParseClash` | src/main.ts:184-187 | once the block is read, parse gives up on the markers exactly when one of the user and assistant markers is a prefix of the other |
| `ParseProperties.ParseThrows` | src/main.ts:166-173 | parse throws exactly when a block is present and `YAML.parse` of its body either raises a syntax error or gives `null`/`undefined`, whose property read then throws; a scalar such as a bare string does not throw and reads as a block with no fields |
| `ParseProperties.NoBlockDefaults` | src/main.ts:137-148 | without `---` on line 0, the markers are `//`, `:>`, `!>`, `??` and "\n!>\n$&", and shareSys is false |
| `ParseProperties.ClosedBlock` | src/main.ts:156-165 | a block opened on line 0 and closed by the document's first later `---` feeds YAML the lines in between, and the data starts after it |
| `ParseProperties.UnclosedBlock` | src/main.ts:149-183 | an unclosed block is closed by the synthetic line, so no data line is scanned and there is no result |
| `ParseProperties.DefaultsWellFormed` | src/main.ts:139-190 | the default markers are unambiguous, they leave the `---` line reachable as a reset, and the default template holds the assistant marker |
| `ParseProperties.ExhaustedScanEmpty` | src/main.ts:203-209 | a scan that runs out without shareSys, ending on a reset line, ends with no messages |
| `ParseProperties.ExhaustedScanSystems` | src/main.ts:205-206 | a scan that runs out with shareSys, ending on a reset line, ends with system messages only |
| `ParseProperties.NoAskNoAnswer` | src/main.ts:191-231 | without shareSys, and with `---` reachable as a reset, a document with no ask line yields undefined |
| `ParseProperties.NoAskSharedSystems` | src/main.ts:191-231 | with shareSys, a document with no ask line can still yield a result, at index 0 and with system messages only |
| `ParseProperties.ScanIgnoresTemplate` | src/main.ts:192-228 | the answer template plays no part in the scan |
| `ParseProperties.TemplateWarningHarmless` | src/main.ts:188-190 | a template without the assistant marker is only logged: any other template gives the same outcome apart from the template carried |
| `CheckedParse.ParseChecked` | src/main.ts:191-233 | corrected parse: a result exactly when parse gives one and the scan stopped on an ask line of the document; otherwise parse's own outcome, or "no trigger" in place of an answer; the text at the reported index then holds the ask token, and the result is parse's own |
| `CheckedParse.FoundAskLine` | src/main.ts:198-233 | when the scan stopped on a document line, the index and token parse reports point at that line, which holds the token |
| `CheckedParse.CheckedAgrees` | src/main.ts:191-233 | when the ask line is found, the corrected parse equals parse |
| `CheckedParse.UnaskedLines` | src/main.ts:135 | the sample document "---\nshareSys: true\n---\ns" splits into a block, one system line and no ask line |
| `CheckedParse.UnaskedSetup` | src/main.ts:156-176 | with YAML reading the body "shareSys: true" as `{shareSys: true}`, that document's data starts at line 3, with the default markers and shareSys on |
| `CheckedParse.UnaskedScan` | src/main.ts:192-228 | its scan keeps the system message through the synthetic reset and finds no ask line |
| `CheckedParse.ParseAnswersWithoutAsk` | src/main.ts:191-233 | as written, parse answers that document at index 0, where the text holds "--"; the corrected parse declines |
| `CheckedParse.SplitFour` | src/main.ts:135 | four newline-free lines joined with "\n" split back into exactly those four lines |
| `CheckedParse.OpensWithDashes` | src/main.ts:42 | a text whose first line is `---` holds "--" at offset 0, so a splice there with the two-character ask token overwrites it |
| `CheckedParse.DashIgnoredLines` | src/main.ts:135 | the sample document "---\nignore: '-'\n---\ns" splits into a block, one system line and no ask line |
| `CheckedParse.DashSetup` | src/main.ts:156-176 | with YAML reading the body "ignore: '-'" as `{ignore: "-"}`, the ignore marker becomes `-`, shareSys stays off, and the data starts at line 3 |
| `CheckedParse.DashScan` | src/main.ts:192-228 | under those markers the synthetic `---` is classified as ignored, not as a reset, so the system message survives and no ask line is found |
| `CheckedParse.ParseAnswersPastIgnoredReset` | src/main.ts:191-233 | as written, parse answers that document at index 0, where the text holds "--", even without shareSys; the corrected parse declines |
| `CheckedParse.SplitThree` | src/main.ts:135 | three newline-free lines joined with "\n" split back into exactly those three lines |
| `CheckedParse.DashUserLines` | src/main.ts:135 | the document "---\nuser: '-'\n---" is an option block and nothing else |
| `CheckedParse.DashUserSetup` | src/main.ts:155-183 | when YAML reads its block as `{user: "-"}`, the user marker is `-`, shareSys is off, and the data starts at the synthetic line |
| `CheckedParse.DashUserScan` | src/main.ts:192-228 | under those markers the synthetic `---` is a user turn, so the scan ends with the invented user message "--" and finds no ask line |
| `CheckedParse.ParseAnswersResetAsUserTurn` | src/main.ts:191-233 | as written, parse answers that document at index 0 with the single message "--", where the text holds "--"; the corrected parse declines |
| `Provider.ChatGptMessages` | src/main.ts:78-82 | one chatgpt message per message, in order, keeping role and text and dropping the image |
| `Provider.GeminiRoleOf` | src/main.ts:94-95 | system and user messages go to gemini as `user`, and only assistant messages as `model` |
| `Provider.GeminiContents` | src/main.ts:91-98 | one gemini entry per message, in order, keeping the text; the role is `model` exactly for assistant messages |
| `Provider.GeminiFromChatGpt` | src/main.ts:78-98 | each gemini entry is the matching chatgpt message with its role mapped, so both carry the same conversation |
| `Provider.ShapesAppend` | src/main.ts:78-98 | both shapes distribute over concatenation, so appended turns are sent last |
| `Provider.Shape` | src/main.ts:71-98 | the chatgpt shape goes out exactly when `type` is "chatgpt" and the gemini shape exactly when it is "gemini"; both have one entry per message |
| `Watch.ReplyText` | src/main.ts:33-38 | the text handed to the render is the provider's answer, or the error's text when the call rejects |
| `Watch.Splice` | src/main.ts:42 | within bounds, the text before the index and after the replaced span is unchanged, with the insert between them; past the end, the insert is appended |
| `Watch.SpliceLine` | src/main.ts:42 | splicing over a line's characters replaces that line and leaves every other line as it was |
| `Watch.Writes` | src/main.ts:24-46 | a cycle writes nothing unless parse gives a result; otherwise its first write is the captured text with the ask token at the reported offset replaced by the pending marker, and, unless the call never settles, its second write is the captured text with the ask token replaced by the rendered reply |
| `Watch.WritesAtAskLine` | src/main.ts:30-42 | when the scan stopped on a document line, each write replaces exactly that line: first with "?...", then with the rendered reply, which for the default template is "\n!>\n" and the reply |
| `Watch.SafeWrites` | src/main.ts:24-46 | with both corrections, a cycle writes exactly when parse gives a result and the scan stopped on an ask line of the document; it writes twice unless the call never settles |
| `Watch.SafeWritesReplaceAskLine` | src/main.ts:30-42 | each corrected write replaces the ask line and nothing else, and a placeholder-only template receives the whole reply |
| `Watch.ExampleLines` | src/main.ts:135 | "sys\n:> hi\n??" splits into a system line, a user turn and the ask token |
| `Watch.ExampleSetup` | src/main.ts:137-148 | that document has no option block, so the defaults stand |
| `Watch.ExampleTable` | src/main.ts:150-154 | the offset table of that document puts its three lines at offsets 0, 4 and 10 |
| `Watch.ExampleKinds` | src/main.ts:192-200 | under the default markers "sys" is content, ":> hi" a user turn and "??" the trigger |
| `Watch.ExampleScan` | src/main.ts:192-228 | its scan builds a system message and a user message and stops on line 2, at offset 10 |
| `Watch.RoundTripExample` | src/main.ts:26-44 | the messages are [system "sys", user " hi"], and a reply `a` turns the text into "sys\n:> hi\n" + "\n!>\n" + a |

## Left out

- Js.IndexOfFrom: a `from` past the end of the string gives None, whereas JavaScript clamps it (an empty pattern is then found at the length); `replace` with a string pattern only searches from 0.
- File watching, reading and writing, creating a missing file, the
  `config.json` load and CLI path handling (src/main.ts:1-23, 43): these are
  I/O. The loaded profile is an input, and each write is a returned string.
- The `canWatch` re-entrancy gate (src/main.ts:17, 25, 29, 45): it only
  matters when events and async calls interleave.
- `fetch`, the AbortController, the response-shape extraction, and the
  URL, header and API-key construction (src/main.ts:54-74, 84-87, 101-131):
  these are network plumbing. The request body's passthrough of
  `config.option` is also left out. The reply is an input: `Watch.Reply`
  answered, rejected (the error's text is rendered), or never settled (an
  abort).
- `YAML.parse` (src/main.ts:166) is an input function. A marker value that is
  truthy but not a string (a number, `true`, an object) is not representable,
  so such overrides are not modelled. A string-valued `config` is not
  representable either: `Object.assign` would copy its characters as index
  keys. A profile whose JSON is not an object is not modelled.
- The regex engine (src/main.ts:212-215): the image and link matches are
  inputs giving capture group 1. Only the order of the checks (image first) is
  modelled.
- `parseImageUrl`, `parseUrl` and `data2text` (src/main.ts:236-260) are
  input resolvers. The real `parseUrl` never resolves, so a link line would
  hang the cycle. The model assumes the resolver returns a string.
- `Object.assign` mutating the global `_config` from one cycle to the next
  (src/main.ts:174): each parse here starts from the profile as given.
- Console logging (src/main.ts:167, 185, 189): the template warning is
  `Parser.TemplateWarns`, and it is shown to change nothing.
- JavaScript numbers are modelled as integers, so NaN and fractions are not
  modelled in truthiness.
- Characters outside the Basic Multilingual Plane (UTF-16 surrogate pairs)
  are not modelled, because a Dafny `char` is a whole scalar value.

## Findings

| source | as written | input that shows it | evidently intended | confidence | as-written member | corrected member |
|---|---|---|---|---|---|---|
| src/main.ts:191-233 | `askIndex` starts at 0 and is returned even when no ask line was reached. With shareSys, system messages survive the synthetic reset, so the watcher writes at offset 0. | the text "---\nshareSys: true\n---\ns": the result has index 0, and the watcher overwrites the "--" that opens the block | answer only when an ask line was found, using an explicit found flag | not executed | `CheckedParse.ParseAnswersWithoutAsk` | `CheckedParse.ParseChecked` |
| src/main.ts:191-233 | `askIndex` starts at 0 and is returned even when no ask line was reached. An ignore marker that is a prefix of `---` makes the synthetic reset line an ignored line, so system messages survive it even without shareSys. | the text "---\nignore: '-'\n---\ns": the result has index 0, and the watcher overwrites the "--" that opens the block | answer only when an ask line was found, using an explicit found flag | not executed | `CheckedParse.ParseAnswersPastIgnoredReset` | `CheckedParse.ParseChecked` |
| src/main.ts:191-233 | `askIndex` starts at 0 and is returned even when no ask line was reached. A user marker that is a prefix of `---` makes the synthetic reset line a turn, so a document with no content line and no shareSys is answered. | the text "---\nuser: '-'\n---": the result has index 0 and the one message "--", and the watcher overwrites the "--" that opens the block | answer only when an ask line was found, using an explicit found flag | not executed | `CheckedParse.ParseAnswersResetAsUserTurn` | `CheckedParse.ParseChecked` |
| src/main.ts:39 | the reply regex stops at the first `\r`, U+2028 or U+2029. The rest of the reply is appended after the template's expansion, not placed at `$&`. | template "$&x" with the reply "\r" renders "x\r" | the whole reply at `$&`, giving "\rx" | not executed | `Substitution.RenderSplitsAtCarriageReturn` | `Substitution.RenderWhole` |

=== FILE: checked_parse.dfy ===
/**
 * `parse` has no "found" flag: `askIndex` starts at 0 and is reported even
 * when the scan never reaches an ask line. This module shows a document
 * where that happens and defines the corrected parse, which answers only
 * when the scan stopped on an ask line of the document.
 */
module CheckedParse {
  import opened Wrappers
  import opened Js
  import opened Lines
  import opened Options
  import opened Conversation
  import opened Parser
  import opened ParseProperties

  /** The scan of `text` stopped on one of the document's own lines. */
  predicate FoundAsk(text: string, env: Env) {
    && Prepare(text, env).Success?
    && var end := ScanDocument(text, Prepare(text, env).value, env.att);
       end.stoppedAt.Some? && end.stoppedAt.value < |Split(text)|
  }

  /**
   * Offset `index` of `text` starts a line that is exactly `ask`, so the
   * text there holds the token.
   */
  predicate AskLineAt(text: string, index: nat, ask: string) {
    && OccursAt(text, ask, index)
    && exists n :: 0 <= n < |Split(text)| && Split(text)[n] == ask && index == Offset(Split(text), n)
  }

  /** `parse` with a found flag: without an ask line in the document there is no answer. */
  function ParseChecked(text: string, env: Env): (o: Outcome)
    ensures o.Parsed? ==> o == Parse(text, env)
    ensures !Parse(text, env).Parsed? ==> o == Parse(text, env)
    ensures Parse(text, env).Parsed? && !o.Parsed? ==> o == Skipped(NoTrigger)
    ensures o.Parsed? <==> Parse(text, env).Parsed? && FoundAsk(text, env)
    ensures o.Parsed? ==> AskLineAt(text, o.result.index, o.result.askMark)
  {
    var p := Parse(text, env);
    if !p.Parsed? then p
    else if FoundAsk(text, env) then
      FoundAskLine(text, env);
      p
    else Skipped(NoTrigger)
  }

  /** When the ask line is found, `parse` reports that line's offset, and the text holds the token there. */
  lemma FoundAskLine(text: string, env: Env)
    requires FoundAsk(text, env) && Parse(text, env).Parsed?
    ensures AskLineAt(text, Parse(text, env).result.index, Parse(text, env).result.askMark)
  {
    var setup := Prepare(text, env).value;
    var n := ScanDocument(text, setup, env.att).stoppedAt.value;
    ParseOffset(text, env, setup, n);
    NoTrimOrDrop(text, env, setup);
    AskLineOf(text, setup.settings.markers.ask, n);
  }

  lemma AskLineOf(text: string, ask: string, n: nat)
    requires n < |Split(text)| && Split(text)[n] == ask
    ensures AskLineAt(text, Offset(Split(text), n), ask)
  {
    StoppedText(text, ask, n);
  }

  /** With the ask line found, the corrected parse is `parse`. */
  lemma CheckedAgrees(text: string, env: Env)
    requires FoundAsk(text, env)
    ensures ParseChecked(text, env) == Parse(text, env)
  {
  }

  /** An option block with no fields, as a non-object YAML value reads. */
  const NoFields := OptionBlock(None, None, None, None, None, Undefined, None)

  /** An environment without profile or attachments whose YAML reads `body` as `block`. */
  function BlockEnv(body: string, block: OptionBlock): Env {
    Env(
      b => if b == body then YamlDoc(block) else YamlDoc(NoFields),
      None,
      Attachments(_ => None, _ => None, _ => None, _ => ""))
  }

  /** A document with `shareSys` and a system line but no ask line. */
  const Unasked: string := "---\nshareSys: true\n---\ns"

  /** YAML reads its block as `{shareSys: true}`. */
  function SharingEnv(): Env {
    BlockEnv("shareSys: true", OptionBlock(None, None, None, None, None, Bool(true), None))
  }

  /** `Unasked` has an option block, one system line and no ask line. */
  lemma UnaskedLines()
    ensures Split(Unasked) == ["---", "shareSys: true", "---", "s"]
  {
    assert Unasked == "---" + "\n" + "shareSys: true" + "\n" + "---" + "\n" + "s";
    SplitFour("---", "shareSys: true", "---", "s");
  }

  /** Its settings: the defaults with `shareSys` on; the data starts at line 3. */
  lemma UnaskedSetup(text: string)
    requires Split(text) == ["---", "shareSys: true", "---", "s"]
    ensures Prepare(text, SharingEnv()) == Success(Setup(Settings(Defaults, true, map["type" := Str("chatgpt")]), 3))
  {
    var l := DocLines(text);
    assert l == ["---", "shareSys: true", "---", "s", "---"];
    assert FindClose(l, 1) == Some(2);
    assert l[1..2] == ["shareSys: true"];
    assert Join(["shareSys: true"]) == "shareSys: true";
  }

  /** Its scan keeps the system message through the synthetic reset and finds no ask line. */
  lemma UnaskedScan(text: string)
    requires Split(text) == ["---", "shareSys: true", "---", "s"]
    ensures ScanDocument(text, Setup(Settings(Defaults, true, map["type" := Str("chatgpt")]), 3), SharingEnv().att)
            == ScanEnd([Message(System, "s", None)], 0, None)
  {
    var env := SharingEnv();
    var settings := Settings(Defaults, true, map["type" := Str("chatgpt")]);
    var l := DocLines(text);
    assert l == ["---", "shareSys: true", "---", "s", "---"];
    var ps := Table(l, 0);
    var sys := Message(System, "s", None);
    assert ps[3].text == "s" && ps[4].text == "---";
    assert Classify("s", Defaults) == Content;
    DefaultsWellFormed();
    assert Step([], "s", Defaults, true, env.att) == [sys];
    assert Systems([sys]) == [sys];
    assert Step([sys], "---", Defaults, true, env.att) == [sys];
    assert Scan(ps, 5, settings, env.att, [sys]) == ScanEnd([sys], 0, None);
    assert Scan(ps, 4, settings, env.att, [sys]) == ScanEnd([sys], 0, None);
  }

  /** Four newline-free lines joined with "\n" split back into those lines. */
  lemma SplitFour(a: string, b: string, c: string, d: string)
    requires '\n' !in a && '\n' !in b && '\n' !in c && '\n' !in d
    ensures Split(a + "\n" + b + "\n" + c + "\n" + d) == [a, b, c, d]
  {
    var ls := [a, b, c, d];
    assert ls[3..] == [d] && ls[2..] == [c, d] && ls[1..] == [b, c, d];
    assert Join([c, d]) == c + "\n" + d;
    assert Join([b, c, d]) == b + "\n" + (c + "\n" + d);
    assert Join(ls) == a + "\n" + (b + "\n" + (c + "\n" + d));
    JoinFour(a, b, c, d);
    assert NoNewlines(ls);
    SplitJoin(ls);
  }

  lemma JoinFour(a: string, b: string, c: string, d: string)
    ensures a + "\n" + (b + "\n" + (c + "\n" + d)) == a + "\n" + b + "\n" + c + "\n" + d
  {
  }

  /** A text whose first line is `---` begins with "--". */
  lemma OpensWithDashes(text: string)
    requires 0 < |Split(text)| && Split(text)[0] == "---"
    ensures |text| >= 2 && text[0..2] == "--"
  {
    LineInText(text, 0);
    assert text[0..3] == "---";
  }

  /**
   * As written, `parse` answers a document split as `Unasked` is (see
   * `UnaskedLines`) at offset 0, where the text holds "--" rather than the
   * ask token: the watcher would overwrite the first two characters of the
   * option block. The corrected parse declines.
   */
  lemma ParseAnswersWithoutAsk(text: string)
    requires Split(text) == ["---", "shareSys: true", "---", "s"]
    ensures Parse(text, SharingEnv()).Parsed?
    ensures Parse(text, SharingEnv()).result.index == 0
    ensures Parse(text, SharingEnv()).result.askMark == "??"
    ensures text[0..2] == "--"
    ensures ParseChecked(text, SharingEnv()) == Skipped(NoTrigger)
  {
    var env := SharingEnv();
    UnaskedSetup(text);
    UnaskedScan(text);
    DefaultsWellFormed();
    assert !FoundAsk(text, env);
    OpensWithDashes(text);
  }

  /** A document whose ignore marker `-` also covers the synthetic `---`. */
  const DashIgnored: string := "---\nignore: '-'\n---\ns"

  /** The default markers with `-` as the ignore marker. */
  const DashMarkers := Markers("-", ":>", "!>", "??", "\n!>\n$&")

  /** YAML reads its block as `{ignore: "-"}`. */
  function DashEnv(): Env {
    BlockEnv("ignore: '-'", OptionBlock(Some("-"), None, None, None, None, Undefined, None))
  }

  /** `DashIgnored` has an option block, one system line and no ask line. */
  lemma DashIgnoredLines()
    ensures Split(DashIgnored) == ["---", "ignore: '-'", "---", "s"]
  {
    assert DashIgnored == "---" + "\n" + "ignore: '-'" + "\n" + "---" + "\n" + "s";
    SplitFour("---", "ignore: '-'", "---", "s");
  }

  /** Its settings: `-` as the ignore marker, `shareSys` off; the data starts at line 3. */
  lemma DashSetup(text: string)
    requires Split(text) == ["---", "ignore: '-'", "---", "s"]
    ensures Prepare(text, DashEnv()) == Success(Setup(Settings(DashMarkers, false, map["type" := Str("chatgpt")]), 3))
  {
    var l := DocLines(text);
    assert l == ["---", "ignore: '-'", "---", "s", "---"];
    assert FindClose(l, 1) == Some(2);
    assert l[1..2] == ["ignore: '-'"];
    assert Join(["ignore: '-'"]) == "ignore: '-'";
  }

  /** Its scan classifies the synthetic `---` as ignored, so the system message survives. */
  lemma DashScan(text: string)
    requires Split(text) == ["---", "ignore: '-'", "---", "s"]
    ensures ScanDocument(text, Setup(Settings(DashMarkers, false, map["type" := Str("chatgpt")]), 3), DashEnv().att)
            == ScanEnd([Message(System, "s", None)], 0, None)
  {
    var env := DashEnv();
    var settings := Settings(DashMarkers, false, map["type" := Str("chatgpt")]);
    var l := DocLines(text);
    assert l == ["---", "ignore: '-'", "---", "s", "---"];
    var ps := Table(l, 0);
    var sys := Message(System, "s", None);
    assert ps[3].text == "s" && ps[4].text == "---";
    assert "!>"[0] != "s"[0] && ":>"[0] != "s"[0] && "-"[0] != "s"[0];
    assert Classify("s", DashMarkers) == Content;
    assert "!>"[0] != "---"[0] && ":>"[0] != "---"[0] && "-" <= "---";
    assert Classify("---", DashMarkers) == Ignored;
    assert Step([], "s", DashMarkers, false, env.att) == [sys];
    assert Step([sys], "---", DashMarkers, false, env.att) == [sys];
    assert Scan(ps, 5, settings, env.att, [sys]) == ScanEnd([sys], 0, None);
    assert Scan(ps, 4, settings, env.att, [sys]) == ScanEnd([sys], 0, None);
  }

  /**
   * Without `shareSys` the same defect shows when the ignore marker is a
   * prefix of `---`: the synthetic reset line is skipped as ignored, the
   * system message survives, and `parse` answers at offset 0 of a text
   * that begins with "--". The corrected parse declines.
   */
  lemma ParseAnswersPastIgnoredReset(text: string)
    requires Split(text) == ["---", "ignore: '-'", "---", "s"]
    ensures Parse(text, DashEnv()).Parsed?
    ensures Parse(text, DashEnv()).result.index == 0
    ensures Parse(text, DashEnv()).result.askMark == "??"
    ensures text[0..2] == "--"
    ensures ParseChecked(text, DashEnv()) == Skipped(NoTrigger)
  {
    var env := DashEnv();
    DashSetup(text);
    DashScan(text);
    assert ":>"[0] != "!>"[0];
    assert !FoundAsk(text, env);
    OpensWithDashes(text);
  }

  /** A document made only of an option block whose user marker `-` also covers `---`. */
  const DashUser: string := "---\nuser: '-'\n---"

  /** The default markers with `-` as the user marker. */
  const DashUserMarkers := Markers("//", "-", "!>", "??", "\n!>\n$&")

  /** YAML reads its block as `{user: "-"}`. */
  function DashUserEnv(): Env {
    BlockEnv("user: '-'", OptionBlock(None, Some("-"), None, None, None, Undefined, None))
  }

  /** Three newline-free lines joined with "\n" split back into those lines. */
  lemma SplitThree(a: string, b: string, c: string)
    requires '\n' !in a && '\n' !in b && '\n' !in c
    ensures Split(a + "\n" + b + "\n" + c) == [a, b, c]
  {
    var ls := [a, b, c];
    assert ls[2..] == [c] && ls[1..] == [b, c];
    assert Join([b, c]) == b + "\n" + c;
    assert Join(ls) == a + "\n" + (b + "\n" + c);
    assert a + "\n" + (b + "\n" + c) == a + "\n" + b + "\n" + c;
    assert NoNewlines(ls);
    SplitJoin(ls);
  }

  /** `DashUser` is an option block and nothing else. */
  lemma DashUserLines()
    ensures Split(DashUser) == ["---", "user: '-'", "---"]
  {
    assert DashUser == "---" + "\n" + "user: '-'" + "\n" + "---";
    SplitThree("---", "user: '-'", "---");
  }

  /** Its settings: `-` as the user marker, `shareSys` off; the data starts at line 3, the synthetic line. */
  lemma DashUserSetup(text: string)
    requires Split(text) == ["---", "user: '-'", "---"]
    ensures Prepare(text, DashUserEnv()) == Success(Setup(Settings(DashUserMarkers, false, map["type" := Str("chatgpt")]), 3))
  {
    var l := DocLines(text);
    assert l == ["---", "user: '-'", "---", "---"];
    assert FindClose(l, 1) == Some(2);
    assert l[1..2] == ["user: '-'"];
    assert Join(["user: '-'"]) == "user: '-'";
  }

  /** Its scan reads the synthetic `---` as a user turn, inventing the message "--". */
  lemma DashUserScan(text: string)
    requires Split(text) == ["---", "user: '-'", "---"]
    ensures ScanDocument(text, Setup(Settings(DashUserMarkers, false, map["type" := Str("chatgpt")]), 3), DashUserEnv().att)
            == ScanEnd([Message(User, "--", None)], 0, None)
  {
    var env := DashUserEnv();
    var settings := Settings(DashUserMarkers, false, map["type" := Str("chatgpt")]);
    var l := DocLines(text);
    assert l == ["---", "user: '-'", "---", "---"];
    var ps := Table(l, 0);
    var turn := Message(User, "--", None);
    assert ps[3].text == "---";
    assert "!>"[0] != "---"[0] && "-" <= "---";
    assert Classify("---", DashUserMarkers) == UserTurn;
    assert "---"[|"-"|..] == "--";
    assert Step([], "---", DashUserMarkers, false, env.att) == [turn];
    assert Scan(ps, 4, settings, env.att, [turn]) == ScanEnd([turn], 0, None);
  }

  /**
   * With no content line and no `shareSys`, a user marker that is a prefix
   * of `---` turns the synthetic reset line into a user turn: `parse`
   * answers at offset 0 with the invented message "--", and the watcher
   * would overwrite the "--" that opens the block. The corrected parse
   * declines.
   */
  lemma ParseAnswersResetAsUserTurn(text: string)
    requires Split(text) == ["---", "user: '-'", "---"]
    ensures Parse(text, DashUserEnv()).Parsed?
    ensures Parse(text, DashUserEnv()).result.index == 0
    ensures Parse(text, DashUserEnv()).result.messages == [Message(User, "--", None)]
    ensures text[0..2] == "--"
    ensures ParseChecked(text, DashUserEnv()) == Skipped(NoTrigger)
  {
    var env := DashUserEnv();
    DashUserSetup(text);
    DashUserScan(text);
    assert "-"[0] != "!>"[0];
    assert !FoundAsk(text, env);
    OpensWithDashes(text);
  }
}

=== FILE: conversation.dfy ===
/**
 * The conversation builder: how one data line is classified and how it
 * changes the role-tagged message list.
 */
module Conversation {
  import opened Wrappers
  import opened Js
  import opened Options

  datatype Role = System | User | Assistant

  /** An image attachment as `parseImageUrl` describes it. */
  datatype Image = Image(src: string, mime: string)

  /** One message: its role, its text, and an optional image (`content.img`). */
  datatype Message = Message(role: Role, text: string, img: Option<Image>)

  /**
   * The regex matches and the attachment resolvers, abstracted: each matcher
   * gives capture group 1 of its first match in the line (the link or image
   * target); the resolvers stand for `parseImageUrl` and `parseUrl`.
   */
  datatype Attachments = Attachments(
    imageMatch: string -> Option<string>,
    linkMatch: string -> Option<string>,
    resolveImage: string -> Option<Image>,
    resolveLink: string -> string)

  /** What a data line is, in the order the scan tests it. */
  datatype Kind = AiTurn | UserTurn | AskTrigger | Ignored | Reset | Content

  /**
   * Classification by precedence: assistant prefix, user prefix, the exact
   * ask token, ignore prefix, the exact reset line, anything else.
   */
  function Classify(line: string, mk: Markers): (k: Kind)
    ensures k == AiTurn <==> mk.ai <= line
    ensures k == UserTurn <==> !(mk.ai <= line) && mk.user <= line
    ensures k == AskTrigger <==> !(mk.ai <= line) && !(mk.user <= line) && line == mk.ask
    ensures k == Ignored <==> !(mk.ai <= line) && !(mk.user <= line) && line != mk.ask && mk.ignore <= line
    ensures k == Reset <==>
              !(mk.ai <= line) && !(mk.user <= line) && line != mk.ask && !(mk.ignore <= line) && line == ResetMark
  {
    if mk.ai <= line then AiTurn
    else if mk.user <= line then UserTurn
    else if line == mk.ask then AskTrigger
    else if mk.ignore <= line then Ignored
    else if line == ResetMark then Reset
    else Content
  }

  /** The system-role messages, in their original order (`filter(role === "system")`). */
  function Systems(msgs: seq<Message>): (r: seq<Message>)
    ensures |r| <= |msgs|
    ensures forall i :: 0 <= i < |r| ==> r[i].role == System
    ensures forall x: Message :: x.role == System ==> multiset(r)[x] == multiset(msgs)[x]
    ensures forall x: Message :: x.role != System ==> multiset(r)[x] == 0
    decreases |msgs|
  {
    if |msgs| == 0 then []
    else
      var rest := Systems(msgs[1..]);
      assert msgs == [msgs[0]] + msgs[1..];
      if msgs[0].role == System then [msgs[0]] + rest else rest
  }

  /** Filtering distributes over concatenation, so the survivors keep their order. */
  lemma {:induction false} SystemsAppend(a: seq<Message>, b: seq<Message>)
    ensures Systems(a + b) == Systems(a) + Systems(b)
    decreases |a|
  {
    if |a| > 0 {
      assert (a + b)[0] == a[0];
      assert (a + b)[1..] == a[1..] + b;
      SystemsAppend(a[1..], b);
    } else {
      assert a + b == b;
    }
  }

  /** Filtering twice is filtering once: a second reset keeps what the first kept. */
  lemma {:induction false} SystemsIdempotent(msgs: seq<Message>)
    ensures Systems(Systems(msgs)) == Systems(msgs)
    decreases |msgs|
  {
    if |msgs| > 0 {
      SystemsIdempotent(msgs[1..]);
      var rest := Systems(msgs[1..]);
      if msgs[0].role == System {
        assert ([msgs[0]] + rest)[1..] == rest;
      }
    }
  }

  /**
   * A plain content line: it starts a system message when the list is empty;
   * otherwise it changes only the last message: an image match sets its
   * image, else a link match appends the resolved text, else the line is
   * appended after a newline.
   */
  function Continue(msgs: seq<Message>, line: string, att: Attachments): (r: seq<Message>)
    ensures |msgs| == 0 ==> r == [Message(System, line, None)]
    ensures |msgs| > 0 ==> |r| == |msgs| && r[..|r| - 1] == msgs[..|msgs| - 1]
    ensures |msgs| > 0 ==> r[|r| - 1].role == msgs[|msgs| - 1].role
    ensures |msgs| > 0 && att.imageMatch(line).Some? ==>
              r[|r| - 1].text == msgs[|msgs| - 1].text
              && r[|r| - 1].img == att.resolveImage(att.imageMatch(line).value)
    ensures |msgs| > 0 && att.imageMatch(line).None? && att.linkMatch(line).Some? ==>
              r[|r| - 1].text == msgs[|msgs| - 1].text + att.resolveLink(att.linkMatch(line).value)
              && r[|r| - 1].img == msgs[|msgs| - 1].img
    ensures |msgs| > 0 && att.imageMatch(line).None? && att.linkMatch(line).None? ==>
              r[|r| - 1].text == msgs[|msgs| - 1].text + "\n" + line
              && r[|r| - 1].img == msgs[|msgs| - 1].img
  {
    if |msgs| == 0 then [Message(System, line, None)]
    else
      var last := msgs[|msgs| - 1];
      var updated :=
        match att.imageMatch(line)
        case Some(src) => last.(img := att.resolveImage(src))
        case None =>
          match att.linkMatch(line)
          case Some(target) => last.(text := last.text + att.resolveLink(target))
          case None => last.(text := last.text + "\n" + line);
      msgs[..|msgs| - 1] + [updated]
  }

  /** The change one non-trigger data line makes to the message list. */
  function Step(msgs: seq<Message>, line: string, mk: Markers, shareSys: bool, att: Attachments): (r: seq<Message>)
    requires Classify(line, mk) != AskTrigger
    ensures Classify(line, mk) in {AiTurn, UserTurn} ==>
              |r| == |msgs| + 1 && r[..|msgs|] == msgs && r[|msgs|].img.None?
    ensures Classify(line, mk) == AiTurn ==> r[|msgs|].role == Assistant && mk.ai + r[|msgs|].text == line
    ensures Classify(line, mk) == UserTurn ==> r[|msgs|].role == User && mk.user + r[|msgs|].text == line
    ensures Classify(line, mk) == Ignored ==> r == msgs
    ensures Classify(line, mk) == Reset ==> r == (if shareSys then Systems(msgs) else [])
    ensures Classify(line, mk) == Content ==> r == Continue(msgs, line, att)
  {
    match Classify(line, mk)
    case AiTurn =>
      RemoveLeading(line, mk.ai);
      msgs + [Message(Assistant, RemoveFirst(line, mk.ai), None)]
    case UserTurn =>
      RemoveLeading(line, mk.user);
      msgs + [Message(User, RemoveFirst(line, mk.user), None)]
    case Ignored => msgs
    case Reset => if shareSys then Systems(msgs) else []
    case Content => Continue(msgs, line, att)
  }

  /** With `shareSys`, a reset loses no system message and keeps their order. */
  lemma ResetKeepsSystems(msgs: seq<Message>, mk: Markers, att: Attachments)
    requires Classify(ResetMark, mk) == Reset
    ensures Systems(Step(msgs, ResetMark, mk, true, att)) == Systems(msgs)
    ensures forall x: Message :: x.role == System ==>
              multiset(Step(msgs, ResetMark, mk, true, att))[x] == multiset(msgs)[x]
  {
    SystemsIdempotent(msgs);
  }
}

=== FILE: js.dfy ===
/**
 * The few JavaScript values and string builtins that the parser relies on.
 * A `char` stands for one UTF-16 code unit, so `|s|` is JavaScript's
 * `s.length` and every index is a code-unit offset.
 */
module Js {
  import opened Wrappers

  /** A JSON/YAML-shaped JavaScript value (numbers are restricted to integers). */
  datatype Value =
    | Undefined
    | Null
    | Bool(b: bool)
    | Num(n: int)
    | Str(s: string)
    | Obj(fields: map<string, Value>)

  /** JavaScript truthiness, as used by `||`, `!` and `Boolean(...)`. */
  predicate Truthy(v: Value) {
    match v
    case Undefined => false
    case Null => false
    case Bool(b) => b
    case Num(n) => n != 0
    case Str(s) => s != ""
    case Obj(_) => true
  }

  /** `pat` occurs in `s` starting at offset `k`. */
  predicate OccursAt(s: string, pat: string, k: nat) {
    k + |pat| <= |s| && s[k..k + |pat|] == pat
  }

  /**
   * The first occurrence of `pat` at or after `from`. For `from` within the
   * string this is `s.indexOf(pat, from)`; JavaScript also clamps a `from`
   * past the end (so `"abc".indexOf("", 5)` is 3), which this does not model.
   * `replace` with a string pattern searches from 0.
   */
  function IndexOfFrom(s: string, pat: string, from: nat): (r: Option<nat>)
    ensures r.Some? ==> from <= r.value && OccursAt(s, pat, r.value)
    ensures r.Some? ==> forall j :: from <= j < r.value ==> !OccursAt(s, pat, j)
    ensures r.None? ==> forall j :: from <= j ==> !OccursAt(s, pat, j)
    decreases |s| - from
  {
    if from + |pat| > |s| then None
    else if s[from..from + |pat|] == pat then Some(from)
    else IndexOfFrom(s, pat, from + 1)
  }

  /** `s.indexOf(pat)`. */
  function IndexOf(s: string, pat: string): Option<nat> {
    IndexOfFrom(s, pat, 0)
  }

  /**
   * `s.replace(pat, "")` with a string pattern: only the first occurrence is
   * removed (an empty replacement has no `$` patterns to expand).
   */
  function RemoveFirst(s: string, pat: string): string {
    match IndexOf(s, pat)
    case None => s
    case Some(k) => s[..k] + s[k + |pat|..]
  }

  /** Removing a leading marker the line starts with leaves exactly the rest of the line. */
  lemma RemoveLeading(s: string, pat: string)
    requires pat <= s
    ensures RemoveFirst(s, pat) == s[|pat|..]
    ensures pat + RemoveFirst(s, pat) == s
  {
    assert OccursAt(s, pat, 0);
    assert IndexOf(s, pat) == Some(0);
  }

  /** `s.slice(from, to)` for non-negative bounds: both are clamped to `s.length`. */
  function Slice(s: string, from: nat, to: nat): (r: string)
    ensures from <= to <= |s| ==> r == s[from..to]
    ensures to <= from ==> r == ""
    ensures |s| <= from ==> r == ""
    ensures from <= |s| <= to ==> r == s[from..]
  {
    var a := if from <= |s| then from else |s|;
    var b := if to <= |s| then to else |s|;
    if a < b then s[a..b] else ""
  }

  /** `s.includes(pat)`. */
  predicate Includes(s: string, pat: string) {
    IndexOf(s, pat).Some?
  }
}

=== FILE: lines.dfy ===
/**
 * A document as a sequence of lines: `text.split("\n")`, its inverse
 * `join("\n")`, and the running offset table that maps every line to the
 * absolute offset of its first character in the original text.
 */
module Lines {

  /** Number of occurrences of `c` in `s`. */
  function Count(s: string, c: char): nat
    decreases |s|
  {
    if |s| == 0 then 0 else (if s[0] == c then 1 else 0) + Count(s[1..], c)
  }

  /** No line contains a line separator. */
  predicate NoNewlines(ls: seq<string>) {
    forall i :: 0 <= i < |ls| ==> '\n' !in ls[i]
  }

  /**
   * `s.split("\n")`: the pieces between separators, one more piece than
   * there are separators (so the empty text is one empty line).
   */
  function Split(s: string): (r: seq<string>)
    ensures |r| == Count(s, '\n') + 1
    ensures NoNewlines(r)
    decreases |s|
  {
    if |s| == 0 then [""]
    else
      var rest := Split(s[1..]);
      if s[0] == '\n' then [""] + rest
      else [[s[0]] + rest[0]] + rest[1..]
  }

  /** `ls.join("\n")`. */
  function Join(ls: seq<string>): string
    decreases |ls|
  {
    if |ls| == 0 then ""
    else if |ls| == 1 then ls[0]
    else ls[0] + "\n" + Join(ls[1..])
  }

  /** Joining the pieces of a split gives back the text. */
  lemma {:induction false} JoinSplit(s: string)
    ensures Join(Split(s)) == s
    decreases |s|
  {
    if |s| > 0 {
      JoinSplit(s[1..]);
      var rest := Split(s[1..]);
      if s[0] == '\n' {
        assert Split(s) == [""] + rest;
        assert ([""] + rest)[1..] == rest;
        assert s == "\n" + s[1..];
      } else {
        var r := Split(s);
        assert r == [[s[0]] + rest[0]] + rest[1..];
        assert r[1..] == rest[1..];
        if |rest| == 1 {
          assert Join(r) == [s[0]] + rest[0];
          assert s == [s[0]] + s[1..];
        } else {
          assert Join(r) == [s[0]] + rest[0] + "\n" + Join(rest[1..]);
          assert Join(rest) == rest[0] + "\n" + Join(rest[1..]);
          assert s == [s[0]] + s[1..];
        }
      }
    }
  }

  /** Splitting text that starts with a separator-free piece `a`. */
  lemma {:induction false} SplitPrefix(a: string, t: string)
    requires '\n' !in a
    ensures Split(a + t) == [a + Split(t)[0]] + Split(t)[1..]
    decreases |a|
  {
    if |a| > 0 {
      SplitPrefix(a[1..], t);
      assert (a + t)[1..] == a[1..] + t;
      assert (a + t)[0] == a[0];
      var rest := Split(a[1..] + t);
      assert Split(a + t) == [[a[0]] + rest[0]] + rest[1..];
      assert [a[0]] + (a[1..] + Split(t)[0]) == a + Split(t)[0];
    } else {
      assert a + t == t;
      assert a + Split(t)[0] == Split(t)[0];
      assert Split(t) == [Split(t)[0]] + Split(t)[1..];
    }
  }

  /** Splitting a join of separator-free lines gives back the lines. */
  lemma {:induction false} SplitJoin(ls: seq<string>)
    requires |ls| >= 1
    requires NoNewlines(ls)
    ensures Split(Join(ls)) == ls
    decreases |ls|
  {
    if |ls| == 1 {
      SplitPrefix(ls[0], "");
      assert ls[0] + "" == ls[0];
    } else {
      SplitJoin(ls[1..]);
      var t := "\n" + Join(ls[1..]);
      assert Join(ls) == ls[0] + t;
      SplitPrefix(ls[0], t);
      assert t[1..] == Join(ls[1..]);
      assert Split(t) == [""] + Split(Join(ls[1..]));
      assert ls[0] + "" == ls[0];
      assert ls == [ls[0]] + ls[1..];
    }
  }

  /** Offset of line `n`: the sum of `|ls[k]| + 1` over the lines before it. */
  function Offset(ls: seq<string>, n: nat): nat
    requires n <= |ls|
    decreases n
  {
    if n == 0 then 0 else |ls[0]| + 1 + Offset(ls[1..], n - 1)
  }

  /** Every line sits in the joined text at its offset. */
  lemma {:induction false} LineAt(ls: seq<string>, n: nat)
    requires n < |ls|
    ensures Offset(ls, n) + |ls[n]| <= |Join(ls)|
    ensures Join(ls)[Offset(ls, n)..Offset(ls, n) + |ls[n]|] == ls[n]
    decreases n
  {
    if |ls| == 1 {
    } else if n == 0 {
      assert Join(ls) == ls[0] + ("\n" + Join(ls[1..]));
    } else {
      LineAt(ls[1..], n - 1);
      var head := ls[0] + "\n";
      assert Join(ls) == head + Join(ls[1..]);
      var o := Offset(ls[1..], n - 1);
      assert Offset(ls, n) == |head| + o;
      assert (head + Join(ls[1..]))[|head| + o..|head| + o + |ls[n]|]
          == Join(ls[1..])[o..o + |ls[n]|];
    }
  }

  /** Appending a line does not move the lines before it. */
  lemma {:induction false} OffsetAppend(ls: seq<string>, x: string, n: nat)
    requires n <= |ls|
    ensures Offset(ls + [x], n) == Offset(ls, n)
    decreases n
  {
    if n > 0 {
      assert (ls + [x])[1..] == ls[1..] + [x];
      OffsetAppend(ls[1..], x, n - 1);
    }
  }

  /** One past the last line is one past the end of the text. */
  lemma {:induction false} OffsetEnd(ls: seq<string>)
    requires |ls| >= 1
    ensures Offset(ls, |ls|) == |Join(ls)| + 1
    decreases |ls|
  {
    if |ls| > 1 {
      OffsetEnd(ls[1..]);
    }
  }

  /**
   * Replacing the characters of line `n` in the joined text is the same as
   * replacing line `n` and joining again: every other line is untouched.
   */
  lemma {:induction false} JoinSplice(ls: seq<string>, n: nat, x: string)
    requires n < |ls|
    ensures Offset(ls, n) + |ls[n]| <= |Join(ls)|
    ensures Join(ls)[..Offset(ls, n)] + x + Join(ls)[Offset(ls, n) + |ls[n]|..] == Join(ls[n := x])
    decreases n
  {
    LineAt(ls, n);
    if n == 0 {
      SpliceFirst(ls, x);
    } else {
      JoinSplice(ls[1..], n - 1, x);
      SpliceLater(ls, n, x);
    }
  }

  lemma SpliceFirst(ls: seq<string>, x: string)
    requires 0 < |ls| && |ls[0]| <= |Join(ls)|
    ensures x + Join(ls)[|ls[0]|..] == Join(ls[0 := x])
  {
    if |ls| == 1 {
      assert ls[0 := x] == [x];
    } else {
      SpliceHead(ls, x);
    }
  }

  lemma SpliceHead(ls: seq<string>, x: string)
    requires 1 < |ls|
    ensures x + Join(ls)[|ls[0]|..] == Join(ls[0 := x])
  {
    var tail := "\n" + Join(ls[1..]);
    assert Join(ls) == ls[0] + tail;
    ShiftSlices(ls[0], tail, 0, 0);
    assert ls[0 := x][1..] == ls[1..];
  }

  /** Line n of a text's split sits in the text at its offset. */
  lemma LineInText(s: string, n: nat)
    requires n < |Split(s)|
    ensures Offset(Split(s), n) + |Split(s)[n]| <= |s|
    ensures s[Offset(Split(s), n)..Offset(Split(s), n) + |Split(s)[n]|] == Split(s)[n]
  {
    JoinSplit(s);
    LineAt(Split(s), n);
  }

  /** One step of the splice induction: a line after the first one. */
  lemma SpliceLater(ls: seq<string>, n: nat, x: string)
    requires 0 < n < |ls|
    requires Offset(ls[1..], n - 1) + |ls[n]| <= |Join(ls[1..])|
    requires Join(ls[1..])[..Offset(ls[1..], n - 1)] + x + Join(ls[1..])[Offset(ls[1..], n - 1) + |ls[n]|..]
             == Join(ls[1..][n - 1 := x])
    ensures Join(ls)[..Offset(ls, n)] + x + Join(ls)[Offset(ls, n) + |ls[n]|..] == Join(ls[n := x])
  {
    var ls' := ls[n := x];
    var head := ls[0] + "\n";
    var j1 := Join(ls[1..]);
    var o := Offset(ls[1..], n - 1);
    assert Join(ls) == head + j1;
    assert ls'[1..] == ls[1..][n - 1 := x];
    assert Join(ls') == head + Join(ls'[1..]);
    ShiftSlices(head, j1, o, o + |ls[n]|);
  }

  /** Slicing behind a fixed prefix is slicing the rest. */
  lemma ShiftSlices(head: string, rest: string, a: nat, b: nat)
    requires a <= |rest| && b <= |rest|
    ensures (head + rest)[..|head| + a] == head + rest[..a]
    ensures (head + rest)[|head| + b..] == rest[b..]
  {
  }

  /** One row of the offset table: a line and the offset of its first character. */
  datatype Entry = Entry(text: string, index: nat)

  /**
   * The table `l.map(...)` builds with a running `index += line.length + 1`,
   * starting at `start`.
   */
  function Table(ls: seq<string>, start: nat): (ps: seq<Entry>)
    ensures |ps| == |ls|
    ensures forall n :: 0 <= n < |ls| ==> ps[n].text == ls[n]
    ensures forall n :: 0 <= n < |ls| ==> ps[n].index == start + Offset(ls, n)
    decreases |ls|
  {
    if |ls| == 0 then []
    else [Entry(ls[0], start)] + Table(ls[1..], start + |ls[0]| + 1)
  }
}

=== FILE: options.dfy ===
/**
 * The marker registry and the leading option block: detection of the block
 * by the `for` loop over the lines, and the overrides its parsed YAML
 * applies to the markers, to `shareSys` and to the provider configuration.
 */
module Options {
  import opened Wrappers
  import opened Js
  import Lines

  /** The option-block delimiter; not configurable. */
  const OptionMark: string := "---"

  /** The conversation-reset line; the same sigil, not configurable either. */
  const ResetMark: string := "---"

  /** The configurable sigils and the answer template. */
  datatype Markers = Markers(ignore: string, user: string, ai: string, ask: string, answer: string)

  /** The built-in markers. */
  const Defaults: Markers := Markers("//", ":>", "!>", "??", "\n!>\n$&")

  /** No marker is the empty string (an override must be truthy). */
  predicate NonEmpty(mk: Markers) {
    mk.ignore != "" && mk.user != "" && mk.ai != "" && mk.ask != "" && mk.answer != ""
  }

  /** The provider configuration: keys `type`, `key`, `url`, `option`, and any others. */
  type Config = map<string, Value>

  /**
   * The fields of the YAML object the block parses to. A marker field holds
   * its string value, or None when absent or not a string; `config` holds
   * the object under that key, or None when there is none.
   */
  datatype OptionBlock = OptionBlock(
    ignore: Option<string>,
    user: Option<string>,
    ai: Option<string>,
    ask: Option<string>,
    answer: Option<string>,
    shareSys: Value,
    config: Option<Config>)

  /**
   * What `YAML.parse` gives for the block's text: a syntax error (thrown),
   * `null`/`undefined` (whose property access then throws), or a value whose
   * properties are read (a non-object value reads as a block with no fields).
   */
  datatype YamlResult = YamlError(message: string) | YamlNull | YamlDoc(block: OptionBlock)

  /** Why a parse cycle is abandoned with an exception. */
  datatype ParseError = OptionSyntax(message: string) | OptionNotObject

  /** The option block's interior lines and the index of the first data line. */
  datatype Block = Absent | Present(body: seq<string>, dataStart: nat)

  /**
   * The option loop as written: line 0 equal to the delimiter opens the
   * block, a later delimiter closes it; lines in between are collected.
   */
  function OptionLoop(l: seq<string>, n: nat, isOp: bool, op: seq<string>): (r: Block)
    requires n <= |l|
    ensures r.Present? ==> n < r.dataStart <= |l| && l[r.dataStart - 1] == OptionMark
    ensures r.Present? ==> op <= r.body
    ensures r.Present? && !isOp ==> n == 0
    decreases |l| - n
  {
    if n == |l| then Absent
    else if l[n] == OptionMark && n == 0 then OptionLoop(l, 1, true, op)
    else if l[n] == OptionMark && isOp then Present(op, n + 1)
    else OptionLoop(l, n + 1, isOp, if isOp then op + [l[n]] else op)
  }

  /** The first delimiter line at or after `n`. */
  function FindClose(l: seq<string>, n: nat): (r: Option<nat>)
    requires n <= |l|
    ensures r.Some? ==> n <= r.value < |l| && l[r.value] == OptionMark
    ensures r.Some? ==> forall k :: n <= k < r.value ==> l[k] != OptionMark
    ensures r.None? ==> forall k :: n <= k < |l| ==> l[k] != OptionMark
    decreases |l| - n
  {
    if n == |l| then None
    else if l[n] == OptionMark then Some(n)
    else FindClose(l, n + 1)
  }

  /** Once the block is open, the loop collects lines up to the first delimiter. */
  lemma {:induction false} LoopInside(l: seq<string>, n: nat)
    requires 1 <= n <= |l|
    ensures OptionLoop(l, n, true, l[1..n]) ==
            match FindClose(l, n)
            case Some(c) => Present(l[1..c], c + 1)
            case None => Absent
    decreases |l| - n
  {
    if n < |l| && l[n] != OptionMark {
      assert l[1..n] + [l[n]] == l[1..n + 1];
      LoopInside(l, n + 1);
    }
  }

  /** A delimiter anywhere but line 0 never opens a block. */
  lemma {:induction false} LoopOutside(l: seq<string>, n: nat)
    requires 1 <= n <= |l|
    ensures OptionLoop(l, n, false, []) == Absent
    decreases |l| - n
  {
    if n < |l| {
      LoopOutside(l, n + 1);
    }
  }

  /**
   * The block the loop finds: present exactly when line 0 is the delimiter
   * and a later delimiter closes it; its body is the lines strictly between
   * the two, and the data starts one past the closing line.
   */
  function LocateBlock(l: seq<string>): (r: Block)
    ensures r.Present? <==> |l| > 0 && l[0] == OptionMark && FindClose(l, 1).Some?
    ensures r.Present? ==> r.dataStart == FindClose(l, 1).value + 1 && r.body == l[1..r.dataStart - 1]
    ensures r.Present? ==> 2 <= r.dataStart <= |l| && l[r.dataStart - 1] == OptionMark
  {
    if |l| == 0 then Absent
    else if l[0] == OptionMark then
      LoopInside(l, 1);
      assert l[1..1] == [];
      OptionLoop(l, 0, false, [])
    else
      LoopOutside(l, 1);
      OptionLoop(l, 0, false, [])
  }

  /** A marker is replaced only by a truthy (non-empty) string. */
  function Override(v: Option<string>, d: string): string {
    if v.Some? && v.value != "" then v.value else d
  }

  /** The markers after the block's overrides `option[key] || marker`. */
  function ApplyMarkers(b: OptionBlock): (mk: Markers)
    ensures NonEmpty(mk)
    ensures b.ignore.Some? && b.ignore.value != "" ==> mk.ignore == b.ignore.value
    ensures b.user.Some? && b.user.value != "" ==> mk.user == b.user.value
    ensures b.ai.Some? && b.ai.value != "" ==> mk.ai == b.ai.value
    ensures b.ask.Some? && b.ask.value != "" ==> mk.ask == b.ask.value
    ensures b.answer.Some? && b.answer.value != "" ==> mk.answer == b.answer.value
    ensures (b.ignore.None? || b.ignore.value == "") ==> mk.ignore == Defaults.ignore
    ensures (b.user.None? || b.user.value == "") ==> mk.user == Defaults.user
    ensures (b.ai.None? || b.ai.value == "") ==> mk.ai == Defaults.ai
    ensures (b.ask.None? || b.ask.value == "") ==> mk.ask == Defaults.ask
    ensures (b.answer.None? || b.answer.value == "") ==> mk.answer == Defaults.answer
  {
    Markers(
      Override(b.ignore, Defaults.ignore),
      Override(b.user, Defaults.user),
      Override(b.ai, Defaults.ai),
      Override(b.ask, Defaults.ask),
      Override(b.answer, Defaults.answer))
  }

  /** `_config || { type: "chatgpt" }`: the profile's configuration, if one was loaded. */
  function BaseConfig(profile: Option<Config>): (c: Config)
    ensures profile.Some? ==> c == profile.value
    ensures profile.None? ==> c.Keys == {"type"} && c["type"] == Str("chatgpt")
  {
    match profile
    case Some(c) => c
    case None => map["type" := Str("chatgpt")]
  }

  /** `Object.assign(target, source)`: a shallow, key-by-key override. */
  function Assign(target: Config, source: Option<Config>): (r: Config)
    ensures source.None? ==> r == target
    ensures source.Some? ==> r.Keys == target.Keys + source.value.Keys
    ensures source.Some? ==> forall k :: k in source.value ==> r[k] == source.value[k]
    ensures forall k :: k in target && (source.None? || k !in source.value) ==> r[k] == target[k]
  {
    match source
    case None => target
    case Some(s) => target + s
  }

  /** `if (!aiConfig.type) aiConfig.type = "chatgpt"`. */
  function WithDefaultType(cfg: Config): (r: Config)
    ensures "type" in r && Truthy(r["type"])
    ensures "type" in cfg && Truthy(cfg["type"]) ==> r == cfg
    ensures !("type" in cfg && Truthy(cfg["type"])) ==> r["type"] == Str("chatgpt")
    ensures forall k :: k in cfg && k != "type" ==> k in r && r[k] == cfg[k]
    ensures r.Keys == cfg.Keys + {"type"}
  {
    if "type" in cfg && Truthy(cfg["type"]) then cfg else cfg["type" := Str("chatgpt")]
  }

  /** The resolved per-document settings. */
  datatype Settings = Settings(markers: Markers, shareSys: bool, config: Config)

  /** The resolved settings and the index of the first line the scan examines. */
  datatype Setup = Setup(settings: Settings, dataStart: nat)

  /** The settings when the document has no option block. */
  function DefaultSetup(profile: Option<Config>): Setup {
    Setup(Settings(Defaults, false, BaseConfig(profile)), 0)
  }

  /** The settings an option block parsed to `b` gives. */
  function BlockSettings(b: OptionBlock, profile: Option<Config>): (r: Settings)
    ensures NonEmpty(r.markers)
    ensures r.shareSys <==> Truthy(b.shareSys)
    ensures b.config.None? ==> r.config == BaseConfig(profile)
    ensures b.config.Some? ==> forall k :: k in b.config.value ==> k in r.config && r.config[k] == b.config.value[k]
  {
    Settings(ApplyMarkers(b), Truthy(b.shareSys), Assign(BaseConfig(profile), b.config))
  }

  /**
   * Lines 155-183: find the block, hand its interior (joined with "\n")
   * to YAML, and apply the overrides; a YAML failure, or a `null` document
   * whose property access throws, abandons the parse.
   */
  function Resolve(l: seq<string>, yaml: string -> YamlResult, profile: Option<Config>): (r: Result<Setup, ParseError>)
    ensures r.Success? ==> r.value.dataStart <= |l| && NonEmpty(r.value.settings.markers)
    ensures LocateBlock(l).Absent? ==> r == Success(DefaultSetup(profile))
    ensures LocateBlock(l).Present? ==>
              match yaml(Lines.Join(LocateBlock(l).body))
              case YamlError(m) => r == Failure(OptionSyntax(m))
              case YamlNull => r == Failure(OptionNotObject)
              case YamlDoc(b) => r == Success(Setup(BlockSettings(b, profile), LocateBlock(l).dataStart))
  {
    match LocateBlock(l)
    case Absent => Success(DefaultSetup(profile))
    case Present(body, ds) =>
      match yaml(Lines.Join(body))
      case YamlError(m) => Failure(OptionSyntax(m))
      case YamlNull => Failure(OptionNotObject)
      case YamlDoc(b) => Success(Setup(BlockSettings(b, profile), ds))
  }
}

=== FILE: parse_properties.dfy ===
/** What `parse` guarantees about the offset it reports, its option block and its outcomes. */
module ParseProperties {
  import opened Wrappers
  import opened Js
  import opened Lines
  import opened Options
  import opened Conversation
  import opened Parser

  /**
   * When the scan stops on a line of the document, the reported offset is
   * that line's offset, and the text there holds exactly the ask token.
   */
  lemma ParseOffset(text: string, env: Env, setup: Setup, n: nat)
    requires Prepare(text, env) == Success(setup)
    requires ScanDocument(text, setup, env.att).stoppedAt == Some(n)
    requires n < |Split(text)|
    ensures Split(text)[n] == setup.settings.markers.ask
    ensures ScanDocument(text, setup, env.att).askIndex == Offset(Split(text), n)
    ensures OccursAt(text, setup.settings.markers.ask, Offset(Split(text), n))
    ensures Parse(text, env).Parsed? ==> Parse(text, env).result.index == Offset(Split(text), n)
  {
    StoppedLine(text, setup, env.att, n);
    StoppedText(text, setup.settings.markers.ask, n);
    ParseIndex(text, env, setup);
  }

  lemma ParseIndex(text: string, env: Env, setup: Setup)
    requires Prepare(text, env) == Success(setup)
    ensures Parse(text, env).Parsed? ==> Parse(text, env).result.index == ScanDocument(text, setup, env.att).askIndex
  {
  }

  /** A line of the text equal to the token puts the token into the text at that line's offset. */
  lemma StoppedText(text: string, ask: string, n: nat)
    requires n < |Split(text)| && Split(text)[n] == ask
    ensures OccursAt(text, ask, Offset(Split(text), n))
  {
    LineInText(text, n);
  }

  /** The line the scan stopped on is the ask token, and its table entry holds its offset. */
  lemma StoppedLine(text: string, setup: Setup, att: Attachments, n: nat)
    requires ScanDocument(text, setup, att).stoppedAt == Some(n)
    requires n < |Split(text)|
    ensures Split(text)[n] == setup.settings.markers.ask
    ensures ScanDocument(text, setup, att).askIndex == Offset(Split(text), n)
  {
    var l := DocLines(text);
    var ps := Table(l, 0);
    StoppedEntry(ps, setup.dataStart, setup.settings, att, [], n);
    assert l == Split(text) + [ResetMark];
    assert ps[n].text == l[n] == Split(text)[n];
    assert ps[n].index == Offset(l, n);
    OffsetAppend(Split(text), ResetMark, n);
  }

  /** The entry the scan stopped on holds the ask token and the reported offset. */
  lemma StoppedEntry(ps: seq<Entry>, k: nat, s: Settings, att: Attachments, msgs: seq<Message>, n: nat)
    requires Scan(ps, k, s, att, msgs).stoppedAt == Some(n)
    ensures n < |ps| && ps[n].text == s.markers.ask
    ensures Scan(ps, k, s, att, msgs).askIndex == ps[n].index
  {
  }

  /** The scan examines nothing after the trigger: later lines cannot change its result. */
  lemma {:induction false} ScanIgnoresRest(ps: seq<Entry>, ps': seq<Entry>, n: nat, s: Settings, att: Attachments, msgs: seq<Message>, k: nat)
    requires FirstTrigger(ps, n, s.markers) == Some(k)
    requires k < |ps'| && ps'[..k + 1] == ps[..k + 1]
    ensures Scan(ps', n, s, att, msgs) == Scan(ps, n, s, att, msgs)
    decreases k - n
  {
    assert ps'[n] == ps'[..k + 1][n] == ps[..k + 1][n] == ps[n];
    if Classify(ps[n].text, s.markers) != AskTrigger {
      ScanPasses(ps, n, s, att, msgs);
      ScanPasses(ps', n, s, att, msgs);
      ScanIgnoresRest(ps, ps', n + 1, s, att, Step(msgs, ps[n].text, s.markers, s.shareSys, att), k);
    }
  }

  /** A line that is not the trigger is folded in, and the scan moves on. */
  lemma ScanPasses(ps: seq<Entry>, n: nat, s: Settings, att: Attachments, msgs: seq<Message>)
    requires n < |ps| && Classify(ps[n].text, s.markers) != AskTrigger
    ensures Scan(ps, n, s, att, msgs) == Scan(ps, n + 1, s, att, Step(msgs, ps[n].text, s.markers, s.shareSys, att))
  {
  }

  /**
   * The messages handed on are the scan's final list: the discarded `trim()`
   * results and the always-truthy `content` filter remove nothing.
   */
  lemma NoTrimOrDrop(text: string, env: Env, setup: Setup)
    requires Prepare(text, env) == Success(setup)
    requires Parse(text, env).Parsed?
    ensures Parse(text, env).result.messages == ScanDocument(text, setup, env.att).messages
    ensures Parse(text, env).result.index == ScanDocument(text, setup, env.att).askIndex
    ensures Parse(text, env).result.askMark == setup.settings.markers.ask
  {
  }

  /** `parse` gives up on ambiguous markers, and only on them, once the block is read. */
  lemma ParseClash(text: string, env: Env, setup: Setup)
    requires Prepare(text, env) == Success(setup)
    ensures Parse(text, env) == Skipped(MarkerClash) <==>
            (setup.settings.markers.user <= setup.settings.markers.ai
             || setup.settings.markers.ai <= setup.settings.markers.user)
  {
  }

  /** `parse` throws exactly when an option block is present and YAML gives no object for it. */
  lemma ParseThrows(text: string, env: Env)
    ensures Parse(text, env).Thrown? <==>
            LocateBlock(DocLines(text)).Present?
            && !env.yaml(Join(LocateBlock(DocLines(text)).body)).YamlDoc?
  {
  }

  /** Without a leading delimiter line, the built-in markers and `shareSys = false` stand. */
  lemma NoBlockDefaults(text: string, env: Env)
    requires Split(text)[0] != OptionMark
    ensures Prepare(text, env) == Success(DefaultSetup(env.profile))
    ensures Prepare(text, env).value.settings.markers == Markers("//", ":>", "!>", "??", "\n!>\n$&")
  {
    assert DocLines(text)[0] == Split(text)[0];
  }

  /**
   * A block that opens at line 0 and is closed by a later delimiter of the
   * document starts the data one past that delimiter and feeds YAML the lines in between.
   */
  lemma ClosedBlock(text: string, env: Env, c: nat)
    requires Split(text)[0] == OptionMark
    requires 1 <= c < |Split(text)| && Split(text)[c] == OptionMark
    requires forall k :: 1 <= k < c ==> Split(text)[k] != OptionMark
    ensures LocateBlock(DocLines(text)) == Present(Split(text)[1..c], c + 1)
  {
    var l := DocLines(text);
    assert l[0] == Split(text)[0] && l[c] == Split(text)[c];
    assert forall k :: 1 <= k < c ==> l[k] == Split(text)[k];
    assert FindClose(l, 1) == Some(c);
    assert l[1..c] == Split(text)[1..c];
  }

  /** An unclosed block is closed by the synthetic last line, so no data line is scanned. */
  lemma UnclosedBlock(text: string, env: Env)
    requires Split(text)[0] == OptionMark
    requires forall k :: 1 <= k < |Split(text)| ==> Split(text)[k] != OptionMark
    ensures LocateBlock(DocLines(text)) == Present(Split(text)[1..], |DocLines(text)|)
    ensures !Parse(text, env).Parsed?
  {
    var l := DocLines(text);
    assert l[0] == Split(text)[0];
    assert forall k :: 1 <= k < |l| - 1 ==> l[k] == Split(text)[k];
    assert FindClose(l, 1) == Some(|l| - 1);
    assert l[1..|l| - 1] == Split(text)[1..];
  }

  /** The reset line is reachable as a reset: no other marker claims it first. */
  predicate ResetReachable(mk: Markers) {
    Classify(ResetMark, mk) == Reset
  }

  /** The built-in markers are unambiguous and leave the reset line reachable. */
  lemma DefaultsWellFormed()
    ensures !Ambiguous(Defaults)
    ensures ResetReachable(Defaults)
    ensures !TemplateWarns(Defaults)
  {
    assert ":>"[0] != "!>"[0];
    assert "!>"[0] != "---"[0] && ":>"[0] != "---"[0] && "//"[0] != "---"[0];
    assert OccursAt(Defaults.answer, Defaults.ai, 1);
  }

  /** An exhausted scan whose last line is a reset, without `shareSys`, ends with no messages. */
  lemma {:induction false} ExhaustedScanEmpty(ps: seq<Entry>, n: nat, s: Settings, att: Attachments, msgs: seq<Message>)
    requires n < |ps| || msgs == []
    requires |ps| > 0 && Classify(ps[|ps| - 1].text, s.markers) == Reset && !s.shareSys
    requires Scan(ps, n, s, att, msgs).stoppedAt.None?
    ensures Scan(ps, n, s, att, msgs).messages == []
    decreases |ps| - n
  {
    if n < |ps| {
      var next := Step(msgs, ps[n].text, s.markers, s.shareSys, att);
      if n + 1 < |ps| {
        ExhaustedScanEmpty(ps, n + 1, s, att, next);
      } else {
        assert next == [];
      }
    }
  }

  /** An exhausted scan whose last line is a reset, with `shareSys`, ends with system messages only. */
  lemma {:induction false} ExhaustedScanSystems(ps: seq<Entry>, n: nat, s: Settings, att: Attachments, msgs: seq<Message>)
    requires n < |ps| || msgs == []
    requires |ps| > 0 && Classify(ps[|ps| - 1].text, s.markers) == Reset && s.shareSys
    requires Scan(ps, n, s, att, msgs).stoppedAt.None?
    ensures forall i :: 0 <= i < |Scan(ps, n, s, att, msgs).messages| ==>
              Scan(ps, n, s, att, msgs).messages[i].role == System
    decreases |ps| - n
  {
    if n < |ps| {
      var next := Step(msgs, ps[n].text, s.markers, s.shareSys, att);
      if n + 1 < |ps| {
        ExhaustedScanSystems(ps, n + 1, s, att, next);
      } else {
        assert next == Systems(msgs);
      }
    }
  }

  /**
   * With the reset line reachable and `shareSys` off, a document whose scan
   * finds no ask line yields `undefined`: the synthetic reset discards the episode.
   */
  lemma NoAskNoAnswer(text: string, env: Env, setup: Setup)
    requires Prepare(text, env) == Success(setup)
    requires ResetReachable(setup.settings.markers) && !setup.settings.shareSys
    requires ScanDocument(text, setup, env.att).stoppedAt.None?
    ensures Parse(text, env).Skipped?
  {
    var l := DocLines(text);
    var ps := Table(l, 0);
    assert ps[|ps| - 1].text == ResetMark;
    ExhaustedScanEmpty(ps, setup.dataStart, setup.settings, env.att, []);
  }

  /** With `shareSys`, a document without an ask line can still reach a result, holding only system messages. */
  lemma NoAskSharedSystems(text: string, env: Env, setup: Setup)
    requires Prepare(text, env) == Success(setup)
    requires ResetReachable(setup.settings.markers) && setup.settings.shareSys
    requires ScanDocument(text, setup, env.att).stoppedAt.None?
    ensures Parse(text, env).Parsed? ==>
              Parse(text, env).result.index == 0
              && forall i :: 0 <= i < |Parse(text, env).result.messages| ==>
                   Parse(text, env).result.messages[i].role == System
  {
    var l := DocLines(text);
    var ps := Table(l, 0);
    assert ps[|ps| - 1].text == ResetMark;
    ExhaustedScanSystems(ps, setup.dataStart, setup.settings, env.att, []);
  }

  /** The answer template plays no part in the scan. */
  lemma {:induction false} ScanIgnoresTemplate(ps: seq<Entry>, n: nat, s: Settings, att: Attachments, msgs: seq<Message>, t: string)
    ensures Scan(ps, n, s.(markers := s.markers.(answer := t)), att, msgs) == Scan(ps, n, s, att, msgs)
    decreases |ps| - n
  {
    var s' := s.(markers := s.markers.(answer := t));
    if n < |ps| {
      assert Classify(ps[n].text, s'.markers) == Classify(ps[n].text, s.markers);
      if Classify(ps[n].text, s.markers) != AskTrigger {
        assert Step(msgs, ps[n].text, s'.markers, s'.shareSys, att) == Step(msgs, ps[n].text, s.markers, s.shareSys, att);
        ScanIgnoresTemplate(ps, n + 1, s, att, Step(msgs, ps[n].text, s.markers, s.shareSys, att), t);
      }
    }
  }

  /**
   * A template lacking the assistant marker is only logged: whatever the
   * template, the outcome is the same apart from the template it carries.
   */
  lemma TemplateWarningHarmless(text: string, setup: Setup, att: Attachments, t: string)
    ensures var setup' := setup.(settings := setup.settings.(markers := setup.settings.markers.(answer := t)));
            var o := Decide(text, setup, att);
            var o' := Decide(text, setup', att);
            && o.Parsed? == o'.Parsed?
            && (o.Parsed? ==> o'.result == o.result.(aiAnswer := t))
            && (!o.Parsed? ==> o' == o)
  {
    ScanIgnoresTemplate(Table(DocLines(text), 0), setup.dataStart, setup.settings, att, [], t);
  }
}

=== FILE: parser.dfy ===
/**
 * `parse`: the single pass over a document's lines that resolves the option
 * block, builds the message list and locates the ask line.
 */
module Parser {
  import opened Wrappers
  import opened Js
  import opened Lines
  import opened Options
  import opened Conversation

  /** The parse's collaborators: `YAML.parse`, the loaded profile (`_config`) and the attachment functions. */
  datatype Env = Env(yaml: string -> YamlResult, profile: Option<Config>, att: Attachments)

  /** What a successful parse hands to the watcher (`{ ai, option }`). */
  datatype ParseResult = ParseResult(
    messages: seq<Message>,
    index: nat,
    askMark: string,
    aiAnswer: string,
    config: Config)

  /** Why `parse` returns `undefined`. `NoTrigger` is given only by the corrected `ParseChecked`. */
  datatype Skip = MarkerClash | NoMessages | NoTrigger

  /** The three ways a parse ends: a result, `undefined`, or a thrown exception. */
  datatype Outcome = Parsed(result: ParseResult) | Skipped(reason: Skip) | Thrown(error: ParseError)

  /** The document's lines with the synthetic reset line pushed after them. */
  function DocLines(text: string): (l: seq<string>)
    ensures |l| == |Split(text)| + 1
    ensures l[..|l| - 1] == Split(text) && l[|l| - 1] == ResetMark
  {
    Split(text) + [ResetMark]
  }

  /** Where the scan ended: the final list, `askIndex`, and the line it stopped on, if any. */
  datatype ScanEnd = ScanEnd(messages: seq<Message>, askIndex: nat, stoppedAt: Option<nat>)

  /** The first line at or after `n` that the markers classify as the trigger. */
  function FirstTrigger(ps: seq<Entry>, n: nat, mk: Markers): (r: Option<nat>)
    ensures r.Some? ==>
              n <= r.value < |ps| && Classify(ps[r.value].text, mk) == AskTrigger
              && forall j :: n <= j < r.value ==> Classify(ps[j].text, mk) != AskTrigger
    ensures r.None? ==> forall j :: n <= j < |ps| ==> Classify(ps[j].text, mk) != AskTrigger
    decreases |ps| - n
  {
    if n >= |ps| then None
    else if Classify(ps[n].text, mk) == AskTrigger then Some(n)
    else FirstTrigger(ps, n + 1, mk)
  }

  /**
   * The data loop from line `n`: it stops at the first line classified as
   * the trigger, recording that line's offset; otherwise it folds `Step`
   * over every line and leaves `askIndex` at 0.
   */
  function Scan(ps: seq<Entry>, n: nat, s: Settings, att: Attachments, msgs: seq<Message>): (r: ScanEnd)
    ensures r.stoppedAt == FirstTrigger(ps, n, s.markers)
    ensures r.askIndex == (if r.stoppedAt.Some? then ps[r.stoppedAt.value].index else 0)
    decreases |ps| - n
  {
    if n >= |ps| then ScanEnd(msgs, 0, None)
    else if Classify(ps[n].text, s.markers) == AskTrigger then ScanEnd(msgs, ps[n].index, Some(n))
    else Scan(ps, n + 1, s, att, Step(msgs, ps[n].text, s.markers, s.shareSys, att))
  }

  /** Lines 135-183: split, push the reset line, resolve the option block. */
  function Prepare(text: string, env: Env): Result<Setup, ParseError> {
    Resolve(DocLines(text), env.yaml, env.profile)
  }

  /** The data loop over the offset table of the document's lines. */
  function ScanDocument(text: string, setup: Setup, att: Attachments): ScanEnd {
    Scan(Table(DocLines(text), 0), setup.dataStart, setup.settings, att, [])
  }

  /** One marker is a prefix of the other, so a line could be read as either turn. */
  predicate Ambiguous(mk: Markers) {
    mk.user <= mk.ai || mk.ai <= mk.user
  }

  /** The answer template lacks the assistant marker; this is only logged. */
  predicate TemplateWarns(mk: Markers) {
    !Includes(mk.answer, mk.ai)
  }

  /** Lines 184-233, once the settings are known. */
  function Decide(text: string, setup: Setup, att: Attachments): (o: Outcome)
    ensures !o.Thrown?
    ensures o == Skipped(MarkerClash) <==> Ambiguous(setup.settings.markers)
    ensures o.Parsed? <==>
              !Ambiguous(setup.settings.markers) && |ScanDocument(text, setup, att).messages| > 0
    ensures o == Skipped(NoMessages) <==>
              !Ambiguous(setup.settings.markers) && |ScanDocument(text, setup, att).messages| == 0
    ensures o.Parsed? ==>
              && o.result.messages == ScanDocument(text, setup, att).messages
              && o.result.index == ScanDocument(text, setup, att).askIndex
              && o.result.askMark == setup.settings.markers.ask
              && o.result.aiAnswer == setup.settings.markers.answer
              && o.result.config == WithDefaultType(setup.settings.config)
  {
    var mk := setup.settings.markers;
    if Ambiguous(mk) then Skipped(MarkerClash)
    else
      var end := ScanDocument(text, setup, att);
      if |end.messages| == 0 then Skipped(NoMessages)
      else Parsed(ParseResult(end.messages, end.askIndex, mk.ask, mk.answer, WithDefaultType(setup.settings.config)))
  }

  /** `parse(text)`, as written. */
  function Parse(text: string, env: Env): (o: Outcome)
    ensures o.Parsed? ==> |o.result.messages| > 0 && o.result.askMark != "" && o.result.aiAnswer != ""
    ensures o.Parsed? ==> "type" in o.result.config && Truthy(o.result.config["type"])
  {
    match Prepare(text, env)
    case Failure(e) => Thrown(e)
    case Success(setup) => Decide(text, setup, env.att)
  }
}

=== FILE: provider.dfy ===
/** How `ai` shapes the message list for each provider before sending it. */
module Provider {
  import opened Js
  import opened Options
  import opened Conversation

  /** A chatgpt message `{ role, content }`. */
  datatype ChatMessage = ChatMessage(role: Role, content: string)

  /** The two roles gemini knows. */
  datatype GeminiRole = UserRole | ModelRole

  /** A gemini entry `{ parts: [{ text }], role }`. */
  datatype GeminiContent = GeminiContent(text: string, role: GeminiRole)

  /** chatgpt: one message per message, role and text kept, the image dropped. */
  function ChatGptMessages(m: seq<Message>): (r: seq<ChatMessage>)
    ensures |r| == |m|
    ensures forall i :: 0 <= i < |m| ==> r[i].role == m[i].role && r[i].content == m[i].text
    decreases |m|
  {
    if |m| == 0 then [] else [ChatMessage(m[0].role, m[0].text)] + ChatGptMessages(m[1..])
  }

  /** gemini folds system into user and calls the assistant `model`. */
  function GeminiRoleOf(role: Role): (g: GeminiRole)
    ensures g == ModelRole <==> role == Assistant
    ensures g == UserRole <==> role == System || role == User
  {
    match role
    case System => UserRole
    case User => UserRole
    case Assistant => ModelRole
  }

  /** gemini: one entry per message, in order, text kept, roles mapped. */
  function GeminiContents(m: seq<Message>): (r: seq<GeminiContent>)
    ensures |r| == |m|
    ensures forall i :: 0 <= i < |m| ==> r[i].text == m[i].text
    ensures forall i :: 0 <= i < |m| ==> (r[i].role == ModelRole <==> m[i].role == Assistant)
    decreases |m|
  {
    if |m| == 0 then []
    else [GeminiContent(m[0].text, GeminiRoleOf(m[0].role))] + GeminiContents(m[1..])
  }

  /** The gemini entries are the chatgpt messages with their roles mapped: both carry the same conversation. */
  lemma {:induction false} GeminiFromChatGpt(m: seq<Message>, i: nat)
    requires i < |m|
    ensures GeminiContents(m)[i] == GeminiContent(ChatGptMessages(m)[i].content, GeminiRoleOf(ChatGptMessages(m)[i].role))
    decreases i
  {
    if i > 0 {
      GeminiFromChatGpt(m[1..], i - 1);
    }
  }

  /** Both shapes distribute over concatenation, so appended turns are sent last. */
  lemma ShapesAppend(a: seq<Message>, b: seq<Message>)
    ensures ChatGptMessages(a + b) == ChatGptMessages(a) + ChatGptMessages(b)
    ensures GeminiContents(a + b) == GeminiContents(a) + GeminiContents(b)
  {
    var c, c1, c2 := ChatGptMessages(a + b), ChatGptMessages(a), ChatGptMessages(b);
    var g, g1, g2 := GeminiContents(a + b), GeminiContents(a), GeminiContents(b);
    forall i | 0 <= i < |a + b|
      ensures c[i] == (c1 + c2)[i] && g[i] == (g1 + g2)[i]
    {
      if i < |a| {
        assert (a + b)[i] == a[i];
        GeminiFromChatGpt(a + b, i);
        GeminiFromChatGpt(a, i);
      } else {
        assert (a + b)[i] == b[i - |a|];
        GeminiFromChatGpt(a + b, i);
        GeminiFromChatGpt(b, i - |a|);
      }
    }
  }

  /** The request payload's message part, chosen by `config.type`. */
  datatype Payload = ChatGptPayload(messages: seq<ChatMessage>) | GeminiPayload(contents: seq<GeminiContent>) | NoPayload

  /** `config.type === "chatgpt"` or `"gemini"`; any other type sends no messages. */
  function Shape(cfg: Config, m: seq<Message>): (p: Payload)
    ensures p.ChatGptPayload? <==> "type" in cfg && cfg["type"] == Str("chatgpt")
    ensures p.GeminiPayload? <==> "type" in cfg && cfg["type"] == Str("gemini")
    ensures p.ChatGptPayload? ==> |p.messages| == |m|
    ensures p.GeminiPayload? ==> |p.contents| == |m|
  {
    if "type" in cfg && cfg["type"] == Str("chatgpt") then ChatGptPayload(ChatGptMessages(m))
    else if "type" in cfg && cfg["type"] == Str("gemini") then GeminiPayload(GeminiContents(m))
    else NoPayload
  }
}

=== FILE: substitution.dfy ===
/**
 * Answer rendering: `answer.replace(R, template)` with R the regex `(.|\n)*`.
 *
 * The regex has no flags, so it matches once, at offset 0, greedily; `.`
 * matches every character except the line terminators, and the `\n`
 * alternative adds back only the line feed. The template is expanded by
 * the GetSubstitution abstract operation of ECMA-262 (section 22.1.3.19.1
 * in the 2024 edition) with one capture group and no named groups; the
 * unmatched tail of the answer stays after the expansion.
 */
module Substitution {
  import opened Wrappers

  /** The characters `.` does not match without the `s` flag. */
  predicate IsLineTerminator(c: char) {
    c == '\n' || c == '\r' || c == '\U{2028}' || c == '\U{2029}'
  }

  /** One iteration of `(.|\n)`: anything but `\r`, U+2028 and U+2029. */
  predicate DotOrNewline(c: char) {
    !IsLineTerminator(c) || c == '\n'
  }

  /** Every character of `s` is matched by `(.|\n)`. */
  predicate AllMatchable(s: string) {
    forall i :: 0 <= i < |s| ==> DotOrNewline(s[i])
  }

  /** The text `(.|\n)*` matches in `a`: the longest matchable prefix. */
  function LeadingMatch(a: string): (m: string)
    ensures m <= a
    ensures AllMatchable(m)
    ensures |m| < |a| ==> !DotOrNewline(a[|m|])
    decreases |a|
  {
    if |a| == 0 || !DotOrNewline(a[0]) then ""
    else [a[0]] + LeadingMatch(a[1..])
  }

  /** Capture group 1 after the match: the last iteration's character, or undefined. */
  function LastIteration(m: string): Option<string> {
    if |m| == 0 then None else Some([m[|m| - 1]])
  }

  /** An undefined capture is substituted as the empty string. */
  function CaptureText(cap: Option<string>): string {
    match cap
    case None => ""
    case Some(s) => s
  }

  predicate IsDigit(c: char) {
    '0' <= c <= '9'
  }

  function DigitValue(c: char): nat
    requires IsDigit(c)
  {
    c as int - '0' as int
  }

  /**
   * GetSubstitution for a single capture group. `$$` is a dollar, `$&` the
   * match, `` $` `` and `$'` the text before and after it, `$1`/`$01` the
   * capture; a two-digit reference past the one group is read as one digit
   * followed by a literal digit; `$<` and every other `$` stay literal.
   */
  function Substitute(t: string, matched: string, before: string, after: string, cap: Option<string>): string
    decreases |t|
  {
    if |t| == 0 then ""
    else if t[0] != '$' || |t| == 1 then [t[0]] + Substitute(t[1..], matched, before, after, cap)
    else
      var c := t[1];
      if c == '$' then "$" + Substitute(t[2..], matched, before, after, cap)
      else if c == '&' then matched + Substitute(t[2..], matched, before, after, cap)
      else if c == '`' then before + Substitute(t[2..], matched, before, after, cap)
      else if c == '\'' then after + Substitute(t[2..], matched, before, after, cap)
      else if IsDigit(c) then
        if 3 <= |t| && IsDigit(t[2]) && 10 * DigitValue(c) + DigitValue(t[2]) <= 1 then
          (if DigitValue(t[2]) == 1 then CaptureText(cap) else t[..3])
            + Substitute(t[3..], matched, before, after, cap)
        else
          (if DigitValue(c) == 1 then CaptureText(cap) else t[..2])
            + Substitute(t[2..], matched, before, after, cap)
      else if c == '<' then "$<" + Substitute(t[2..], matched, before, after, cap)
      else "$" + Substitute(t[1..], matched, before, after, cap)
  }

  /** `answer.replace(R, template)` with R the regex `(.|\n)*`, as the watcher renders the reply. */
  function Render(template: string, answer: string): (r: string)
    ensures AllMatchable(answer) ==> r == Substitute(template, answer, "", "", LastIteration(answer))
    ensures var tail := answer[|LeadingMatch(answer)|..];
            |tail| <= |r| && r[|r| - |tail|..] == tail
  {
    var m := LeadingMatch(answer);
    var rest := answer[|m|..];
    if AllMatchable(answer) then
      LeadingMatchWhole(answer);
      assert rest == [];
      Substitute(template, m, "", rest, LastIteration(m)) + rest
    else Substitute(template, m, "", rest, LastIteration(m)) + rest
  }

  /** The default answer template. */
  const DefaultTemplate: string := "\n!>\n$&"

  /** Every `$` of the template starts a `$&` placeholder. */
  predicate PlaceholderOnly(t: string) {
    forall i :: 0 <= i < |t| && t[i] == '$' ==> i + 1 < |t| && t[i + 1] == '&'
  }

  /** Reference meaning of a template: each `$&` replaced by `x`, all else verbatim. */
  function Fill(t: string, x: string): string
    decreases |t|
  {
    if |t| == 0 then ""
    else if 2 <= |t| && t[0] == '$' && t[1] == '&' then x + Fill(t[2..], x)
    else [t[0]] + Fill(t[1..], x)
  }

  /** On a placeholder-only template GetSubstitution is plain placeholder filling. */
  lemma {:induction false} SubstitutePlaceholders(t: string, matched: string, before: string, after: string, cap: Option<string>)
    requires PlaceholderOnly(t)
    ensures Substitute(t, matched, before, after, cap) == Fill(t, matched)
    decreases |t|
  {
    if |t| > 0 {
      if t[0] == '$' {
        assert 1 < |t| && t[1] == '&';
        assert PlaceholderOnly(t[2..]) by {
          forall i | 0 <= i < |t[2..]| && t[2..][i] == '$'
            ensures i + 1 < |t[2..]| && t[2..][i + 1] == '&'
          {
            assert t[i + 2] == '$';
          }
        }
        SubstitutePlaceholders(t[2..], matched, before, after, cap);
      } else {
        assert PlaceholderOnly(t[1..]) by {
          forall i | 0 <= i < |t[1..]| && t[1..][i] == '$'
            ensures i + 1 < |t[1..]| && t[1..][i + 1] == '&'
          {
            assert t[i + 1] == '$';
          }
        }
        SubstitutePlaceholders(t[1..], matched, before, after, cap);
        if 2 <= |t| {
          assert t[0] != '$';
        }
      }
    }
  }

  /** An answer free of `\r`, U+2028 and U+2029 is matched whole. */
  lemma {:induction false} LeadingMatchWhole(a: string)
    requires AllMatchable(a)
    ensures LeadingMatch(a) == a
    decreases |a|
  {
    if |a| > 0 {
      assert AllMatchable(a[1..]) by {
        forall i | 0 <= i < |a[1..]| ensures DotOrNewline(a[1..][i]) {
          assert a[1..][i] == a[i + 1];
        }
      }
      LeadingMatchWhole(a[1..]);
      assert a == [a[0]] + a[1..];
    }
  }

  /** For matchable answers, rendering fills every placeholder with the answer. */
  lemma RenderFills(t: string, a: string)
    requires PlaceholderOnly(t)
    requires AllMatchable(a)
    ensures Render(t, a) == Fill(t, a)
  {
    LeadingMatchWhole(a);
    assert a[|a|..] == "";
    SubstitutePlaceholders(t, a, "", "", LastIteration(a));
  }

  /**
   * With the default template the reply always appears verbatim after the
   * assistant marker: a tail cut off at a line terminator is appended right
   * after the expansion, which ends with the placeholder.
   */
  lemma RenderDefault(a: string)
    ensures Render(DefaultTemplate, a) == "\n!>\n" + a
  {
    var m := LeadingMatch(a);
    var rest := a[|m|..];
    RenderUnfold(DefaultTemplate, a);
    SubstituteDefault(m, rest, LastIteration(m));
    assert a == m + rest;
    Associate("\n!>\n", m, rest);
  }

  lemma Associate(p: string, q: string, r: string)
    ensures p + q + r == p + (q + r)
  {
  }

  lemma RenderUnfold(template: string, answer: string)
    ensures var m := LeadingMatch(answer);
            Render(template, answer) == Substitute(template, m, "", answer[|m|..], LastIteration(m)) + answer[|m|..]
  {
  }

  /** The default template expands to "\n!>\n" followed by the match. */
  lemma SubstituteDefault(m: string, rest: string, cap: Option<string>)
    ensures Substitute(DefaultTemplate, m, "", rest, cap) == "\n!>\n" + m
  {
    var t := DefaultTemplate;
    assert t[4..] == "$&";
    assert Substitute(t[4..], m, "", rest, cap) == m + Substitute("", m, "", rest, cap);
    assert Substitute(t[4..], m, "", rest, cap) == m;
    assert t[3..] == "\n$&";
    assert Substitute(t[3..], m, "", rest, cap) == "\n" + m;
    assert t[2..] == ">\n$&";
    Associate(">", "\n", m);
    assert Substitute(t[2..], m, "", rest, cap) == ">\n" + m;
    assert t[1..] == "!>\n$&";
    Associate("!", ">\n", m);
    assert Substitute(t[1..], m, "", rest, cap) == "!>\n" + m;
    Associate("\n", "!>\n", m);
  }

  /** A template without any `$` expands to itself. */
  lemma {:induction false} SubstituteLiteral(t: string, matched: string, before: string, after: string, cap: Option<string>)
    requires '$' !in t
    ensures Substitute(t, matched, before, after, cap) == t
    decreases |t|
  {
    if |t| > 0 {
      SubstituteLiteral(t[1..], matched, before, after, cap);
      assert t == [t[0]] + t[1..];
    }
  }
  /**
   * GetSubstitution's escapes, one by one: `$$` is a dollar, `$&` the match,
   * `` $` `` the text before it and `$'` the text after it.
   */
  lemma SubstituteEscapes(m: string, b: string, a: string, cap: Option<string>)
    ensures Substitute("$$", m, b, a, cap) == "$"
    ensures Substitute("$&", m, b, a, cap) == m
    ensures Substitute("$`", m, b, a, cap) == b
    ensures Substitute("$'", m, b, a, cap) == a
  {
    assert "$$"[2..] == "$&"[2..] == "$`"[2..] == "$'"[2..] == "";
  }

  /**
   * GetSubstitution's group references, for one capture group: `$1` and `$01`
   * are the capture, `$10` is the capture then a literal 0, and `$2`, `$<` and
   * a lone `$` stay as written.
   */
  lemma SubstituteGroups(m: string, b: string, a: string, cap: Option<string>)
    ensures Substitute("$1", m, b, a, cap) == CaptureText(cap)
    ensures Substitute("$01", m, b, a, cap) == CaptureText(cap)
    ensures Substitute("$10", m, b, a, cap) == CaptureText(cap) + "0"
    ensures Substitute("$2", m, b, a, cap) == "$2"
    ensures Substitute("$<", m, b, a, cap) == "$<"
    ensures Substitute("$", m, b, a, cap) == "$"
  {
    assert "$1"[2..] == "";
    assert "$01"[3..] == "" && "$01"[..3] == "$01";
    assert "$10"[2..] == "0";
    assert Substitute("0", m, b, a, cap) == "0";
    assert "$2"[..2] == "$2";
    assert Substitute("$<", m, b, a, cap) == "$<" + Substitute("", m, b, a, cap);
  }

  /** A template without a placeholder drops the matched part of the reply. */
  lemma RenderWithoutPlaceholder(t: string, a: string)
    requires '$' !in t
    ensures Render(t, a) == t + a[|LeadingMatch(a)|..]
  {
    var m := LeadingMatch(a);
    SubstituteLiteral(t, m, "", a[|m|..], LastIteration(m));
  }

  /**
   * Corrected rendering: the whole reply is the match (as the regex `([\s\S])*`
   * would give, its capture being the last character), so nothing of it is left outside the expansion.
   */
  function RenderWhole(template: string, answer: string): (r: string)
    ensures PlaceholderOnly(template) ==> r == Fill(template, answer)
  {
    if PlaceholderOnly(template) then
      SubstitutePlaceholders(template, answer, "", "", LastIteration(answer));
      Substitute(template, answer, "", "", LastIteration(answer))
    else Substitute(template, answer, "", "", LastIteration(answer))
  }

  /** Both renderings agree on the default template. */
  lemma RenderWholeDefault(a: string)
    ensures RenderWhole(DefaultTemplate, a) == Render(DefaultTemplate, a)
  {
    RenderDefault(a);
    DefaultPlaceholderOnly();
    FillDefault(a);
  }

  lemma DefaultPlaceholderOnly()
    ensures PlaceholderOnly(DefaultTemplate)
  {
  }

  lemma FillDefault(a: string)
    ensures Fill(DefaultTemplate, a) == "\n!>\n" + a
  {
    assert DefaultTemplate[4..] == "$&";
    assert DefaultTemplate[3..] == "\n$&";
    assert DefaultTemplate[2..] == ">\n$&";
    assert DefaultTemplate[1..] == "!>\n$&";
    assert Fill("$&", a) == a + Fill("", a);
  }

  /**
   * As written, a reply holding a carriage return is split around the
   * template's trailing text: `"$&x"` with the reply `"\r"` renders `"x\r"`
   * where the placeholder reading gives `"\rx"`.
   */
  lemma RenderSplitsAtCarriageReturn()
    ensures Render("$&x", "\r") == "x\r"
    ensures Fill("$&x", "\r") == "\rx"
    ensures RenderWhole("$&x", "\r") == "\rx"
  {
    assert LeadingMatch("\r") == "";
    assert "\r"[0..] == "\r";
    var t := "$&x";
    assert t[2..] == "x";
    assert Substitute(t[2..], "", "", "\r", None) == "x";
    assert Substitute(t, "", "", "\r", None) == "x";
    assert Fill(t[2..], "\r") == "x";
    assert LastIteration("\r") == Some("\r");
    assert Substitute(t[2..], "\r", "", "", Some("\r")) == "x";
  }
}

=== FILE: watch.dfy ===
/**
 * The watch callback once the file has been read: parse the text captured
 * at the start of the cycle, write a pending marker over the ask token,
 * then write the rendered reply over it, each time splicing into that same
 * captured text.
 */
module Watch {
  import opened Wrappers
  import opened Js
  import opened Lines
  import opened Options
  import opened Conversation
  import opened Parser
  import opened ParseProperties
  import opened CheckedParse
  import opened Substitution

  /** How the provider call settles: an answer, an error (shown as its text), or never (an abort). */
  datatype Reply = Answered(text: string) | Rejected(description: string) | Hung

  /** The placeholder written while the call is outstanding. */
  const Pending: string := "?..."

  /** The text the reply contributes: the answer, or the error's description. */
  function ReplyText(reply: Reply): (t: string)
    requires !reply.Hung?
    ensures reply.Answered? ==> t == reply.text
    ensures reply.Rejected? ==> t == reply.description
  {
    match reply
    case Answered(a) => a
    case Rejected(d) => d
  }

  /**
   * `text.slice(0, index) + insert + text.slice(index + len)`: the text up to
   * the offset, the insert, and the text after the replaced span.
   */
  function Splice(text: string, index: nat, len: nat, insert: string): (r: string)
    ensures index + len <= |text| ==> r == text[..index] + insert + text[index + len..]
    ensures index + len <= |text| ==> |r| == |text| - len + |insert|
    ensures index + len <= |text| ==>
              r[..index] == text[..index]
              && r[index..index + |insert|] == insert
              && r[index + |insert|..] == text[index + len..]
    ensures |text| <= index ==> r == text + insert
  {
    Slice(text, 0, index) + insert + Slice(text, index + len, |text|)
  }

  /** Splicing over line `n`'s characters replaces that line and no other. */
  lemma SpliceLine(text: string, n: nat, x: string)
    requires n < |Split(text)|
    ensures Splice(text, Offset(Split(text), n), |Split(text)[n]|, x) == Join(Split(text)[n := x])
  {
    JoinSplit(text);
    JoinSplice(Split(text), n, x);
  }

  /** The files the cycle writes for `text`, as written: nothing, or the pending marker and then the reply. */
  function Writes(text: string, env: Env, reply: Reply): (w: seq<string>)
    ensures w == [] <==> !Parse(text, env).Parsed?
    ensures |w| <= 2 && (|w| == 1 <==> Parse(text, env).Parsed? && reply.Hung?)
    ensures Parse(text, env).Parsed? ==>
              var p := Parse(text, env).result;
              w[0] == Splice(text, p.index, |p.askMark|, Pending)
    ensures Parse(text, env).Parsed? && !reply.Hung? ==>
              var p := Parse(text, env).result;
              w[1] == Splice(text, p.index, |p.askMark|, Render(p.aiAnswer, ReplyText(reply)))
  {
    match Parse(text, env)
    case Parsed(p) =>
      var first := Splice(text, p.index, |p.askMark|, Pending);
      if reply.Hung? then [first]
      else [first, Splice(text, p.index, |p.askMark|, Render(p.aiAnswer, ReplyText(reply)))]
    case _ => []
  }

  /**
   * When the scan stopped on an ask line of the document, each write
   * replaces exactly that line: with the pending marker, then with the
   * rendered reply, which for the default template is "\n!>\n" and the reply.
   */
  lemma WritesAtAskLine(text: string, env: Env, reply: Reply, setup: Setup, n: nat)
    requires Prepare(text, env) == Success(setup)
    requires ScanDocument(text, setup, env.att).stoppedAt == Some(n)
    requires n < |Split(text)|
    requires Parse(text, env).Parsed?
    ensures Writes(text, env, reply)[0] == Join(Split(text)[n := Pending])
    ensures !reply.Hung? ==>
              Writes(text, env, reply)[1]
              == Join(Split(text)[n := Render(setup.settings.markers.answer, ReplyText(reply))])
    ensures !reply.Hung? && setup.settings.markers.answer == DefaultTemplate ==>
              Writes(text, env, reply)[1] == Join(Split(text)[n := "\n!>\n" + ReplyText(reply)])
  {
    ParseOffset(text, env, setup, n);
    SpliceLine(text, n, Pending);
    if !reply.Hung? {
      SpliceLine(text, n, Render(setup.settings.markers.answer, ReplyText(reply)));
      RenderDefault(ReplyText(reply));
    }
  }

  /** The cycle with both corrections: the checked parse and whole-reply rendering. */
  function SafeWrites(text: string, env: Env, reply: Reply): (w: seq<string>)
    ensures w == [] <==> !ParseChecked(text, env).Parsed?
    ensures w != [] <==> Parse(text, env).Parsed? && FoundAsk(text, env)
    ensures |w| <= 2 && (|w| == 1 <==> ParseChecked(text, env).Parsed? && reply.Hung?)
  {
    match ParseChecked(text, env)
    case Parsed(p) =>
      var first := Splice(text, p.index, |p.askMark|, Pending);
      if reply.Hung? then [first]
      else [first, Splice(text, p.index, |p.askMark|, RenderWhole(p.aiAnswer, ReplyText(reply)))]
    case _ => []
  }

  /**
   * Every corrected write replaces the ask line at the reported offset and
   * nothing else; with a template whose only `$` are placeholders, the reply
   * lands whole in each of them.
   */
  lemma SafeWritesReplaceAskLine(text: string, env: Env, reply: Reply, n: nat)
    requires ParseChecked(text, env).Parsed?
    requires n < |Split(text)| && Offset(Split(text), n) == ParseChecked(text, env).result.index
    requires Split(text)[n] == ParseChecked(text, env).result.askMark
    ensures SafeWrites(text, env, reply)[0] == Join(Split(text)[n := Pending])
    ensures !reply.Hung? ==>
              SafeWrites(text, env, reply)[1]
              == Join(Split(text)[n := RenderWhole(ParseChecked(text, env).result.aiAnswer, ReplyText(reply))])
    ensures !reply.Hung? && PlaceholderOnly(ParseChecked(text, env).result.aiAnswer) ==>
              SafeWrites(text, env, reply)[1]
              == Join(Split(text)[n := Fill(ParseChecked(text, env).result.aiAnswer, ReplyText(reply))])
  {
    var p := ParseChecked(text, env).result;
    SpliceLine(text, n, Pending);
    if !reply.Hung? {
      SpliceLine(text, n, RenderWhole(p.aiAnswer, ReplyText(reply)));
    }
  }

  /** An environment for documents without option block or attachments. */
  function PlainEnv(): Env {
    Env(_ => YamlNull, None, Attachments(_ => None, _ => None, _ => None, _ => ""))
  }

  /** A system line, a user turn, then the ask token. */
  lemma ExampleLines()
    ensures Split("sys\n:> hi\n??") == ["sys", ":> hi", "??"]
  {
    var ls := ["sys", ":> hi", "??"];
    assert Join(ls[2..]) == "??";
    assert Join(ls[1..]) == ":> hi\n??";
    assert Join(ls) == "sys\n:> hi\n??";
    assert NoNewlines(ls);
    SplitJoin(ls);
  }

  lemma JoinThree(p: string, q: string, r: string)
    ensures Join([p, q, r]) == p + "\n" + q + "\n" + r
  {
    assert [p, q, r][1..] == [q, r];
    assert [q, r][1..] == [r];
    assert Join([q, r]) == q + "\n" + r;
    assert Join([p, q, r]) == p + "\n" + (q + "\n" + r);
  }

  /** Such a document has no option block, so the defaults stand. */
  lemma ExampleSetup(text: string)
    requires Split(text) == ["sys", ":> hi", "??"]
    ensures Prepare(text, PlainEnv()) == Success(DefaultSetup(None))
  {
    var l := DocLines(text);
    assert l[0] == "sys";
    assert "sys"[0] != "---"[0];
  }

  /** Its offset table: the three lines at offsets 0, 4 and 10. */
  lemma ExampleTable(text: string)
    requires Split(text) == ["sys", ":> hi", "??"]
    ensures var ps := Table(DocLines(text), 0);
            && |ps| == 4
            && ps[0].text == "sys" && ps[1].text == ":> hi" && ps[2].text == "??"
            && ps[0].index == 0 && ps[1].index == 4 && ps[2].index == 10
  {
    var l := DocLines(text);
    assert l == ["sys", ":> hi", "??", "---"];
  }

  /** Under the default markers the three lines are content, a user turn and the trigger. */
  lemma ExampleKinds()
    ensures Classify("sys", Defaults) == Content
    ensures Classify(":> hi", Defaults) == UserTurn
    ensures Classify("??", Defaults) == AskTrigger
  {
    assert "!>"[0] != "sys"[0] && ":>"[0] != "sys"[0] && "//"[0] != "sys"[0];
    assert "??"[0] != "sys"[0] && "---"[0] != "sys"[0];
    assert "!>"[0] != ":> hi"[0] && ":>" <= ":> hi";
    assert "!>"[0] != "??"[0] && ":>"[0] != "??"[0];
  }

  /** Its scan builds a system and a user message and stops on line 2, at offset 10. */
  lemma ExampleScan(text: string)
    requires Split(text) == ["sys", ":> hi", "??"]
    ensures ScanDocument(text, DefaultSetup(None), PlainEnv().att)
            == ScanEnd([Message(System, "sys", None), Message(User, " hi", None)], 10, Some(2))
  {
    var att := PlainEnv().att;
    var ps := Table(DocLines(text), 0);
    var settings := DefaultSetup(None).settings;
    var sys := Message(System, "sys", None);
    var user := Message(User, " hi", None);
    ExampleTable(text);
    ExampleKinds();
    assert Step([], "sys", Defaults, false, att) == [sys];
    assert Step([sys], ":> hi", Defaults, false, att) == [sys, user];
    assert Scan(ps, 2, settings, att, [sys, user]) == ScanEnd([sys, user], 10, Some(2));
    assert Scan(ps, 1, settings, att, [sys]) == ScanEnd([sys, user], 10, Some(2));
  }

  /**
   * For such a document the messages are the system line and the user turn
   * without its marker, and an answer `a` (say "hello") replaces the ask
   * token by "\n!>\n" and `a`.
   */
  lemma RoundTripExample(text: string, a: string)
    requires Split(text) == ["sys", ":> hi", "??"]
    ensures Parse(text, PlainEnv()).Parsed?
    ensures Parse(text, PlainEnv()).result.messages == [Message(System, "sys", None), Message(User, " hi", None)]
    ensures Writes(text, PlainEnv(), Answered(a))[1] == "sys\n:> hi\n" + ("\n!>\n" + a)
  {
    ExampleSetup(text);
    ExampleScan(text);
    DefaultsWellFormed();
    ExampleWrite(text, a);
  }

  /** The final write of the example. */
  lemma ExampleWrite(text: string, a: string)
    requires Split(text) == ["sys", ":> hi", "??"]
    requires Prepare(text, PlainEnv()) == Success(DefaultSetup(None))
    requires ScanDocument(text, DefaultSetup(None), PlainEnv().att)
             == ScanEnd([Message(System, "sys", None), Message(User, " hi", None)], 10, Some(2))
    requires Parse(text, PlainEnv()).Parsed?
    ensures Writes(text, PlainEnv(), Answered(a))[1] == "sys\n:> hi\n" + ("\n!>\n" + a)
  {
    WritesAtAskLine(text, PlainEnv(), Answered(a), DefaultSetup(None), 2);
    ExampleJoin(text, "\n!>\n" + a);
  }

  lemma ExampleJoin(text: string, x: string)
    requires Split(text) == ["sys", ":> hi", "??"]
    ensures Join(Split(text)[2 := x]) == "sys\n:> hi\n" + x
  {
    assert Split(text)[2 := x] == ["sys", ":> hi", x];
    JoinThree("sys", ":> hi", x);
    assert "sys" + "\n" + ":> hi" + "\n" == "sys\n:> hi\n";
    assert "sys" + "\n" + ":> hi" + "\n" + x == "sys\n:> hi\n" + x;
  }
}

=== FILE: wrappers.dfy ===
/** Option and Result datatypes used across the model. */
module Wrappers {

  /** An optional value: JavaScript's `undefined` versus a present value. */
  datatype Option<+T> = None | Some(value: T)

  /** Either a value or the error that the source would throw. */
  datatype Result<+R, +E> = Success(value: R) | Failure(error: E)
}
